=== FILE: README.md ===
# Speed-limit filler, modelled in Dafny

A model of FrogPilot's speed-limit filler (`selfdrive/frogpilot/system/speed_limit_filler.py`).
The filler samples the car's position together with the speed limit reported by the
dashboard or by navigation, and stores these samples as raw observations. Whenever the
"checked" flag is clear and the Overpass host answers pings, it runs a reconciliation pass
before sampling. The flag starts clear when the process starts, so the first pass can run
while the car is being driven. It is set by every non-empty pass and cleared again when a
drive ends:

- Phase A revalidates the stored "filtered" entries. An entry whose way now has an
  official `maxspeed` is dropped.
- Phase B resolves each raw observation to the first way inside its bounding box. It keeps
  the ways that have no official limit and copies the observed limit onto them as a fill
  value.
- Both phases stop as soon as the device reports it has started.

Files and modules:

- `bounded.dfy` (`Bounded`): the `deque(maxlen=MAX_ENTRIES)` datasets. `MAX_ENTRIES` is
  10,000,000.
- `records.dfy` (`Records`): observations, filtered segments, the logger state and its
  initial load.
- `maxspeed.dfy` (`MaxSpeed`): `int(maxspeed.split()[0]) if maxspeed else None`. The
  IndexError this raises on a whitespace-only tag is kept as a separate outcome.
- `overpass.dfy` (`Overpass`): both Overpass lookups, starting from the decoded reply.
  They choose the first element whose type is `"way"` and read its tag.
- `snapshot.dfy` (`SortedSnapshot`): the persisted snapshot of the filtered dataset, sorted
  by segment id.
- `sampler.dfy` (`Sampler`): one tick of `log_speed_limit`.
- `reconcile.dfy` (`Reconcile`): `update_speed_limits`. The by-id lookup, the box lookup
  and the "started" flag are passed in as functions.
- `scheduler.dfy` (`Scheduler`): one iteration of the main loop. It feeds the pass with the
  Overpass lookups applied to the service's replies.

Behaviours of the code that the model keeps on purpose:

- An empty raw dataset makes the pass return at once, and the pass is not marked done.
- Phase A drops entries that have no segment id.
- When Phase A is cancelled, it also drops every entry it has not reached yet, because the
  retained list replaces the dataset.
- A known limit of `0` counts as known in Phase A (`is not None`) but as missing in
  Phase B (`if speed_limit`); `Reconcile.ScenarioZeroLimitIsDropped` and
  `Reconcile.ScenarioZeroLimitIsFilled` state both sides.
- The pass is marked done even when it was cancelled.
- The first pass runs at process start whatever the car is doing. If the device has already
  started, both phases stop at once, Phase A's empty result replaces the filtered dataset,
  and that truncated dataset is written as the closing snapshot.
- The snapshot every 100 observations is skipped on iterations that `continue`
  (`Reconcile.ResolveOne` states when it is written). `Reconcile.PeriodicSnapshots` is the
  reference list of those snapshots for a whole pass: observation `j` contributes the
  snapshot of the dataset as it stands after `j` exactly when `j + 1` is a multiple of 100
  and `j` reaches the checkpoint. The pass, the Phase B loop and the main-loop iteration are
  each proved to write exactly that list.
- The set of seen ids is kept apart from the filtered dataset. An id evicted from the deque
  therefore stays in the set.
- A whitespace-only `maxspeed` makes the whole lookup fail, not just the tag.

## Model

| member | source | states |
|---|---|---|
| `Bounded.Retain` | selfdrive/frogpilot/system/speed_limit_filler.py:25-26 | a deque built from a list keeps at most MAX_ENTRIES elements, and they are the list's last ones (a suffix); a short list is kept whole |
| `Bounded.AddEntry` | selfdrive/frogpilot/system/speed_limit_filler.py:30-31 | an append keeps the capacity bound and ends with the new element; below capacity the old contents are kept, at capacity exactly the oldest element is evicted |
| `Bounded.AppendAll` | selfdrive/frogpilot/system/speed_limit_filler.py:30-31 | appending a run of elements keeps the capacity bound and adds nothing but those elements |
| `Bounded.AppendAllKeepsNewest` | selfdrive/frogpilot/system/speed_limit_filler.py:25-31 | after any sequence of appends, a bounded deque holds exactly the newest MAX_ENTRIES elements of its whole history |
| `Records.SourceTag` | selfdrive/frogpilot/system/speed_limit_filler.py:66-80 | the stored source tag is "Dashboard" exactly for dashboard observations and "NOO" exactly for navigation observations |
| `Records.Init` | selfdrive/frogpilot/system/speed_limit_filler.py:19-26 | a new logger starts with both flags false and no reference fix; each stored dataset is loaded as its newest entries (a suffix): whole if it fits, otherwise exactly MAX_ENTRIES of them |
| `MaxSpeed.FirstToken` | selfdrive/frogpilot/system/speed_limit_filler.py:111 | the first token of `split()`: there is none exactly when the text is all separators; otherwise it is non-empty, has no separator, comes after separators only, and ends at a separator or at the end of the text |
| `MaxSpeed.ParseInt` | selfdrive/frogpilot/system/speed_limit_filler.py:111-113 | `int(token)` succeeds exactly on an optional sign followed by digits; the sign decides the sign of the result (the value itself is pinned by `MaxSpeed.ParseRender`, `MaxSpeed.ParseIntPlus`, `MaxSpeed.ParseIntMinus` and `MaxSpeed.ParseIntLeadingZero`) |
| `MaxSpeed.ParseMaxspeed` | selfdrive/frogpilot/system/speed_limit_filler.py:108-113 | an absent or empty tag gives no limit; the IndexError outcome happens exactly for non-empty whitespace-only text; when there is a first token the result is `int` of that token, a limit exactly when the token is an integer literal |
| `MaxSpeed.ParseRender` | selfdrive/frogpilot/system/speed_limit_filler.py:111 | the decimal text of any integer parses back to that integer and contains no separator |
| `MaxSpeed.ParseIntPlus` | selfdrive/frogpilot/system/speed_limit_filler.py:111 | a leading "+" does not change the value: "+50" parses as "50" does |
| `MaxSpeed.ParseIntMinus` | selfdrive/frogpilot/system/speed_limit_filler.py:111 | a leading "-" negates the value: "-50" parses as minus what "50" parses as |
| `MaxSpeed.ParseIntLeadingZero` | selfdrive/frogpilot/system/speed_limit_filler.py:111 | a leading zero does not change the value: "050" parses as "50" does |
| `MaxSpeed.MaxspeedRoundTrip` | selfdrive/frogpilot/system/speed_limit_filler.py:108-113 | any tag made of separators, then the decimal text of v, then nothing or a separator and any unit, yields the limit v |
| `MaxSpeed.MaxspeedFirstToken` | selfdrive/frogpilot/system/speed_limit_filler.py:111 | separators, a word, then a separator or nothing: the limit is `int` of that word, however it is spelled |
| `MaxSpeed.MaxspeedWithUnit` | selfdrive/frogpilot/system/speed_limit_filler.py:111 | "50 mph" yields 50 |
| `MaxSpeed.MaxspeedBareNumber` | selfdrive/frogpilot/system/speed_limit_filler.py:111 | "50" yields 50 |
| `MaxSpeed.MaxspeedLeadingZero` | selfdrive/frogpilot/system/speed_limit_filler.py:111 | "050 mph" gives 50 |
| `MaxSpeed.MaxspeedPlusSign` | selfdrive/frogpilot/system/speed_limit_filler.py:111 | "+50" gives 50 |
| `MaxSpeed.MaxspeedGluedUnit` | selfdrive/frogpilot/system/speed_limit_filler.py:110-113 | "50mph" yields no limit (the ValueError is caught) |
| `MaxSpeed.MaxspeedWord` | selfdrive/frogpilot/system/speed_limit_filler.py:110-113 | "none" yields no limit (the ValueError is caught) |
| `Overpass.Ways` | selfdrive/frogpilot/system/speed_limit_filler.py:101 | the filtered list holds only ways, holds every way of the reply, and is no longer than the reply |
| `Overpass.FetchSegments` | selfdrive/frogpilot/system/speed_limit_filler.py:116-118 | any failure of the request or of decoding its reply yields None (the choice of way is stated by `Overpass.LookupsReadFirstWay`) |
| `Overpass.FetchSpeedLimit` | selfdrive/frogpilot/system/speed_limit_filler.py:139-141 | any failure of the request or of decoding its reply yields None (the choice of way is stated by `Overpass.LookupsReadFirstWay`) |
| `Overpass.FirstWayHeadsWays` | selfdrive/frogpilot/system/speed_limit_filler.py:101-106 | the first way in reply order is the head of the filtered list, whatever non-way elements come before it |
| `Overpass.FirstWayExists` | selfdrive/frogpilot/system/speed_limit_filler.py:101-104 | a reply contains some way exactly when it has a first way |
| `Overpass.LookupsReadFirstWay` | selfdrive/frogpilot/system/speed_limit_filler.py:101-115 | both lookups return the first way's id (which may be absent) and its parsed limit; a whitespace-only tag on that way makes them return None |
| `Overpass.SegmentMissingIff` | selfdrive/frogpilot/system/speed_limit_filler.py:101-118 | the box lookup on a decoded reply returns None exactly when no element is a way, or the first way's tag is whitespace only |
| `Overpass.LookupsAgree` | selfdrive/frogpilot/system/speed_limit_filler.py:128-138 | on the same reply, the by-id lookup returns the limit that the box lookup reports, and returns None whenever the box lookup does |
| `SortedSnapshot.Insert` | selfdrive/frogpilot/system/speed_limit_filler.py:197 | inserting into a sorted list keeps it sorted by id and adds exactly the new element (as a multiset) |
| `SortedSnapshot.Sort` | selfdrive/frogpilot/system/speed_limit_filler.py:197 | the sorted list is a permutation of the input and is ordered by segment id |
| `SortedSnapshot.InsertKeepsUnique` | selfdrive/frogpilot/system/speed_limit_filler.py:197 | inserting an entry with a new id keeps the ids distinct |
| `SortedSnapshot.SortKeepsUnique` | selfdrive/frogpilot/system/speed_limit_filler.py:197 | sorting keeps the ids distinct |
| `SortedSnapshot.SnapshotSortsEntries` | selfdrive/frogpilot/system/speed_limit_filler.py:197-200 | the snapshot of a bounded dataset with distinct, present ids holds the same entries (as a multiset), strictly increasing by id |
| `Sampler.LogSpeedLimit` | selfdrive/frogpilot/system/speed_limit_filler.py:33-82 | the raw dataset is checkpointed and `speed_limits_checked` is cleared exactly when the drive ends, and `started_previously` becomes `started`, even when navigation data is stale; a stale tick does nothing more; a missing position or a known map limit resets the reference fix and records nothing; a first fix is remembered without recording; a move under 1 m changes nothing; otherwise the fix slides forward and the dashboard limit is recorded if nonzero, else the navigation limit if nonzero, else nothing |
| `Sampler.RecordedObservation` | selfdrive/frogpilot/system/speed_limit_filler.py:63-80 | a recorded observation starts at the old reference fix and ends at the current one; both are present and the limit is nonzero; it is sourced from the dashboard (stored tag "Dashboard") exactly when the dashboard limit is nonzero, else from navigation (stored tag "NOO"), and it carries that source's value |
| `Sampler.ObservationsNeedTwoFixes` | selfdrive/frogpilot/system/speed_limit_filler.py:45-61 | over any run, each recorded observation needs a usable fix of its own; starting without a reference fix, the first record needs at least two fixes |
| `Sampler.RunStaysValid` | selfdrive/frogpilot/system/speed_limit_filler.py:33-82 | sampling never pushes either dataset past capacity and never touches the filtered dataset |
| `Reconcile.CancelIndex` | selfdrive/frogpilot/system/speed_limit_filler.py:148-151 | a phase stops at the first index where the device reports it has started, or at the end |
| `Reconcile.Retained` | selfdrive/frogpilot/system/speed_limit_filler.py:153-158 | an entry is retained exactly when it has a truthy segment id and the by-id lookup still returns None; the result is never longer than the input |
| `Reconcile.RevalidateFrom` | selfdrive/frogpilot/system/speed_limit_filler.py:147-160 | the Phase A loop returns the entries kept so far plus the retained entries among those processed before cancellation; every result entry comes from the input and still lacks a limit |
| `Reconcile.Revalidate` | selfdrive/frogpilot/system/speed_limit_filler.py:147-160 | Phase A's result is never longer than the old dataset; it is the retained subsequence of the entries before the cancellation index, so entries after that index are discarded |
| `Reconcile.RetainedKeepsUnique` | selfdrive/frogpilot/system/speed_limit_filler.py:153-158 | retaining keeps distinct ids distinct, and every retained entry has an id |
| `Reconcile.RetainedAllSurvive` | selfdrive/frogpilot/system/speed_limit_filler.py:153-158 | a dataset whose entries all still lack a limit is retained unchanged |
| `Reconcile.RetainedIdempotent` | selfdrive/frogpilot/system/speed_limit_filler.py:153-158 | retaining twice with the same lookup answers equals retaining once |
| `Reconcile.RevalidateIdempotent` | selfdrive/frogpilot/system/speed_limit_filler.py:147-160 | Phase A run twice, uncancelled and with unchanged lookup answers, is a no-op the second time |
| `Reconcile.Candidate` | selfdrive/frogpilot/system/speed_limit_filler.py:171-183 | the way an observation would fill always has a nonzero id |
| `Reconcile.CandidateIds` | selfdrive/frogpilot/system/speed_limit_filler.py:176-193 | the candidate ids of a run of observations are exactly the ids that some observation of it fills |
| `Reconcile.NewFills` | selfdrive/frogpilot/system/speed_limit_filler.py:176-193 | the reference for what Phase B adds: at most one entry per observation, each the fill of a processed observation, each for a way not seen before, and no two for the same way |
| `Reconcile.FirstObservationWins` | selfdrive/frogpilot/system/speed_limit_filler.py:184-193 | the entry a way receives is the fill of the first observation that names it; later observations of the same way add nothing |
| `Reconcile.ResolveOne` | selfdrive/frogpilot/system/speed_limit_filler.py:171-197 | one Phase B iteration adds the candidate id to the seen set; the dataset gets the observation's fill through the bounded append exactly when the candidate was not seen before, and is untouched otherwise (no candidate, or the way already seen); a snapshot of the resulting dataset is written exactly when the count is divisible by 100 and the iteration does not `continue` (coordinates present, and the lookup failed or found an unseen way without a limit), and never more than one |
| `Reconcile.ResolveOneKeepsConsistent` | selfdrive/frogpilot/system/speed_limit_filler.py:171-197 | one iteration keeps ids present, distinct and seen, the capacity, and well-ordered snapshots; without eviction the dataset's ids stay equal to the seen set |
| `Reconcile.CheckpointKeeps` | selfdrive/frogpilot/system/speed_limit_filler.py:195-197 | a periodic snapshot changes neither the dataset nor the seen set, and is strictly sorted by id |
| `Reconcile.AddKeepsConsistent` | selfdrive/frogpilot/system/speed_limit_filler.py:187-193 | appending the fill of an unseen nonzero id keeps ids present, distinct and recorded, even when the oldest entry is evicted |
| `Reconcile.AddEntryKeepsUnique` | selfdrive/frogpilot/system/speed_limit_filler.py:187-191 | a bounded append of an entry whose id is new keeps the ids distinct, with or without eviction |
| `SortedSnapshot.Snapshot` | selfdrive/frogpilot/system/speed_limit_filler.py:195-200 | the snapshot holds at most MAX_ENTRIES entries, sorted by id, each one taken from the dataset; a dataset within capacity is copied whole, as the same multiset |
| `Reconcile.Checkpoint` | selfdrive/frogpilot/system/speed_limit_filler.py:195-197 | the dataset and seen set are unchanged; exactly one snapshot is appended when the count is a multiple of 100, and it is the snapshot of the current dataset; earlier snapshots are kept as a prefix |
| `Reconcile.Closing` | selfdrive/frogpilot/system/speed_limit_filler.py:200-202 | the logger's filtered dataset becomes the pass's dataset and the flag is set, nothing else changes; exactly one snapshot, of the final dataset, is appended after the periodic ones |
| `Reconcile.SnapshotAt` | selfdrive/frogpilot/system/speed_limit_filler.py:176-197 | observation j contributes at most one periodic snapshot |
| `Reconcile.FirstSnapshot` | selfdrive/frogpilot/system/speed_limit_filler.py:176-197 | one uncancelled iteration appends exactly the reference periodic snapshot of its own observation |
| `Reconcile.ShiftAgrees` | selfdrive/frogpilot/system/speed_limit_filler.py:176-197 | after one iteration, the reference periodic snapshot of any later observation is the same whether counted from the old or the new progress |
| `Reconcile.ResolveStepSnapshots` | selfdrive/frogpilot/system/speed_limit_filler.py:176-197 | the snapshots of one iteration followed by the reference snapshots of the rest equal the reference snapshots counted from the iteration itself |
| `Reconcile.FillsStep` | selfdrive/frogpilot/system/speed_limit_filler.py:176-192 | the fills appended by one iteration followed by the reference fills of the rest equal the reference fills counted from the iteration itself |
| `Reconcile.CandidateIdsStep` | selfdrive/frogpilot/system/speed_limit_filler.py:176-192 | the candidate ids of a range are those of its first observation joined with those of the rest |
| `Reconcile.ResolveFrom` | selfdrive/frogpilot/system/speed_limit_filler.py:164-197 | the seen set grows by exactly the candidate ids of the observations processed before cancellation; the dataset is the old one with the reference fills of those observations appended through the bounded deque, so old entries stay unless evicted and the first observation of a way wins; the snapshots written are exactly the earlier ones followed by the reference periodic snapshots: one for each processed observation at a multiple of 100 that reaches the checkpoint, of the dataset as it stood after that observation |
| `Reconcile.ResolveFromKeepsConsistent` | selfdrive/frogpilot/system/speed_limit_filler.py:164-197 | the whole Phase B loop keeps its invariant (distinct present ids, all seen, capacity, well-ordered snapshots); without eviction every filled way is present |
| `Reconcile.ResolveStepFills` | selfdrive/frogpilot/system/speed_limit_filler.py:184-193 | appending the pending fills to the dataset after one uncancelled iteration equals appending them, together with that observation's fill if its way is new, to the dataset before it |
| `Reconcile.ResolveStepSeen` | selfdrive/frogpilot/system/speed_limit_filler.py:176-197 | one uncancelled iteration moves the observation's candidate id from the pending ids into the seen set and keeps earlier snapshots |
| `Reconcile.ResolveIgnoresUnprocessed` | selfdrive/frogpilot/system/speed_limit_filler.py:164-167 | Phase B's outcome depends only on the observations before the cancellation index; the rest are left for a later pass |
| `Reconcile.CancelAtOwnIndex` | selfdrive/frogpilot/system/speed_limit_filler.py:164-167 | cutting the observations at the cancellation index does not move the cancellation index |
| `Reconcile.UpdateSpeedLimits` | selfdrive/frogpilot/system/speed_limit_filler.py:143-202 | an empty raw dataset leaves everything unchanged, with no snapshot and the flag not set; otherwise the flag is set even after a cancel, the raw dataset and the sampling state are unchanged, and the snapshots are exactly the reference periodic snapshots of the processed observations followed by the snapshot of the final filtered dataset; the final filtered dataset is Phase A's result followed by the first fill of every way it lacks, in observation order, kept to the newest MAX_ENTRIES, so without eviction Phase A's entries lead it unchanged; capacity is kept; every entry is an old entry that still lacks an official limit, or the fill of an observation processed before cancellation; if ids were distinct before, they are distinct after and every snapshot is strictly increasing by id; without eviction, every way filled by a processed observation is present |
| `Reconcile.PhaseBShape` | selfdrive/frogpilot/system/speed_limit_filler.py:147-193 | Phase B's dataset is Phase A's result followed by the new fills, kept to the newest MAX_ENTRIES; without eviction Phase A's entries come first unchanged |
| `Reconcile.PhaseBMembers` | selfdrive/frogpilot/system/speed_limit_filler.py:147-193 | every entry after Phase B is an old entry that still lacks a limit, or the fill of a processed observation |
| `Reconcile.PhaseBConsistent` | selfdrive/frogpilot/system/speed_limit_filler.py:162-200 | from distinct ids, Phase B keeps ids distinct, writes only well-ordered snapshots, and without eviction loses no filled way |
| `Reconcile.PassShape` | selfdrive/frogpilot/system/speed_limit_filler.py:143-202 | a non-empty pass sets the flag, changes nothing but the filtered dataset, writes exactly the reference periodic snapshots followed by the snapshot of that dataset, and leaves it equal to Phase A's result followed by the new fills |
| `Reconcile.PassKeepsIds` | selfdrive/frogpilot/system/speed_limit_filler.py:162-202 | a pass over distinct ids leaves them distinct with well-ordered snapshots, and without eviction every filled way is present |
| `Reconcile.FinalSnapshotGood` | selfdrive/frogpilot/system/speed_limit_filler.py:200 | the closing snapshot of a consistent Phase B state is strictly increasing by id |
| `Reconcile.CandidatesOfPrefix` | selfdrive/frogpilot/system/speed_limit_filler.py:164-193 | every observation before the cancellation index contributes its candidate id to the ids of the processed prefix |
| `Reconcile.Start` | selfdrive/frogpilot/system/speed_limit_filler.py:147-162 | Phase B starts from exactly Phase A's result, whose ids form the seen set; these entries come from the old dataset and still lack a limit; if the old ids were distinct, the Phase B invariant holds at the start |
| `Reconcile.ScenarioMissingLimitIsFilled` | selfdrive/frogpilot/system/speed_limit_filler.py:176-193 | an observation at (40.0, -75.0)-(40.0001, -75.0), limit 55 from the dashboard, on way 42 with no official limit, gives the single entry {42, Dashboard, 55} |
| `Reconcile.ScenarioKnownLimitIsSkipped` | selfdrive/frogpilot/system/speed_limit_filler.py:182-183 | the same observation on way 42 tagged 55 adds nothing |
| `Reconcile.ScenarioZeroLimitIsFilled` | selfdrive/frogpilot/system/speed_limit_filler.py:182 | Phase B counts an official limit of 0 as missing: way 42 tagged 0 is filled with the observed 55 |
| `Reconcile.ScenarioZeroLimitIsDropped` | selfdrive/frogpilot/system/speed_limit_filler.py:156 | Phase A counts an official limit of 0 as known: the entry for way 42 is dropped once the way is tagged 0 |
| `Reconcile.ScenarioTaggedWayIsDropped` | selfdrive/frogpilot/system/speed_limit_filler.py:155-157 | an entry for way 42 is dropped once the by-id lookup reports 30 |
| `Scheduler.Step` | selfdrive/frogpilot/system/speed_limit_filler.py:207-212 | the pass runs only when it is armed and the host answers pings, so otherwise no snapshot is written and the filtered dataset is unchanged; capacity and distinct ids are kept; `started_previously` follows the tick; a pass over a non-empty raw dataset stays marked done unless the drive ends in the same iteration; when the pass is armed and the host answers, an empty raw dataset leaves the filtered dataset as it was and writes nothing, and a non-empty one leaves the filtered dataset equal to Phase A's result followed by the new fills, bounded, with the reference periodic snapshots followed by the closing one written |

## Left out

- Haversine distance (`calculate_distance_to_point`, line 55) is floating-point trigonometry in a file that is not part of this model. Its outcome is the tick input `movedAtLeast1m`.
- The bounding box (a margin of 0.0001 degrees) and the Overpass query strings (lines 85-94 and 121) are float and string formatting for HTTP. The model passes the two coordinates to the box lookup as they are.
- HTTP requests, `raise_for_status`, JSON decoding of replies, timeouts and `print` diagnostics are not modelled. Any failure among them is the reply `Failed`. A reply without `elements` is an empty list.
- JSON (de)serialisation of the params stores is not modelled. A checkpoint is the sequence that would be written: the raw dataset on a drive end, and the sorted filtered snapshots of a pass.
- `SubMaster` messaging becomes the `Tick` record and the `startedAt(phase, index)` function. The ping of the Overpass host becomes a boolean.
- `sentry.capture_exception` and the catch-all `try` of the main loop (lines 207-215) are not modelled, and neither is the infinite loop itself: `Scheduler.Step` is one iteration.
- MaxSpeed.ParseInt: accepts only an optional sign followed by ASCII digits. Python's `int()` also accepts underscores between digits and non-ASCII decimal digits; the model treats such tokens as unparsable.
- A `maxspeed` tag that is not a string (the AttributeError case) is not modelled. Tags are optional strings.
- Speed limits are floats in the source; the model uses integers, because it only compares them with zero and copies them.
- Stored JSON records that lack `source` or `speed_limit` are not modelled. Records may lack coordinates or a segment id, and those cases are modelled.
- A missing segment id sorts as 0 in a snapshot, where Python would raise. This cannot happen: every entry has an id once Phase A has run.
- SortedSnapshot.Sort: the source's `sorted` is stable. The contract states a permutation ordered by id, not stability. Entries reaching a snapshot have distinct ids, so the order is determined anyway.
- Reconcile.UpdateSpeedLimits: the separate completeness clause (every filled way is present) is stated only when no eviction can happen (the two datasets together fit within capacity). With eviction, a filled way may have been pushed out of the deque again; the exact result, eviction included, is the `Bounded.Retain` equation of the same contract.

=== FILE: bounded.dfy ===
/**
 Bounded, insertion-ordered datasets: the `deque(maxlen=MAX_ENTRIES)` that holds
 both the raw observation log and the filtered segment log.
 */
module Bounded {

  /** Capacity of every dataset; the oldest element is evicted beyond it. */
  const MAX_ENTRIES: nat := 10_000_000

  /** True when `t` is a (possibly empty) tail of `u`. */
  predicate IsSuffix<T(==)>(t: seq<T>, u: seq<T>) {
    |t| <= |u| && t == u[|u| - |t|..]
  }

  /**
   Building a bounded deque from a list: only the last MAX_ENTRIES elements
   survive. This is what loading a stored dataset and taking a snapshot do.
   */
  function Retain<T(==)>(s: seq<T>): (r: seq<T>)
    ensures |r| <= MAX_ENTRIES
    ensures IsSuffix(r, s)
    ensures |r| == |s| || |r| == MAX_ENTRIES
    ensures forall x :: x in r ==> x in s
  {
    if |s| <= MAX_ENTRIES then s else s[|s| - MAX_ENTRIES..]
  }

  /**
   Appending to a bounded deque: below capacity the element is added at the
   end; at capacity the oldest element is evicted first.
   */
  function AddEntry<T(==)>(s: seq<T>, x: T): (r: seq<T>)
    ensures |s| <= MAX_ENTRIES ==> |r| <= MAX_ENTRIES
    ensures |r| > 0 && r[|r| - 1] == x
    ensures forall y :: y in r ==> y in s || y == x
    ensures |s| < MAX_ENTRIES ==> |r| == |s| + 1 && r[..|s|] == s
    ensures |s| >= MAX_ENTRIES ==> |r| == |s| && r[..|s| - 1] == s[1..]
  {
    if |s| < MAX_ENTRIES then s + [x] else s[1..] + [x]
  }

  /** Appending every element of `xs` in order. */
  function AppendAll<T(==)>(s: seq<T>, xs: seq<T>): (r: seq<T>)
    ensures |s| <= MAX_ENTRIES ==> |r| <= MAX_ENTRIES
    ensures forall y :: y in r ==> y in s || y in xs
    decreases |xs|
  {
    if xs == [] then s else AppendAll(AddEntry(s, xs[0]), xs[1..])
  }

  /** A tail of a tail is a tail: the last `n` elements agree. */
  lemma SuffixOfSuffix<T>(t: seq<T>, u: seq<T>, n: nat)
    requires IsSuffix(t, u)
    requires n <= |t|
    ensures t[|t| - n..] == u[|u| - n..]
  {
    var d := |u| - |t|;
    forall k | |t| - n <= k < |t|
      ensures t[k] == u[d + k]
    {
      assert t[k] == u[d..][k];
    }

  }

  /** Truncating early and truncating late keep the same elements. */
  lemma RetainAbsorbs<T>(a: seq<T>, b: seq<T>)
    ensures Retain(Retain(a) + b) == Retain(a + b)
  {
    var a' := Retain(a);
    assert IsSuffix(a' + b, a + b) by {
      assert a' == a[|a| - |a'|..];
      assert (a + b)[|a + b| - |a' + b|..] == a[|a| - |a'|..] + b;
    }
    var n := |Retain(a' + b)|;
    assert n == |Retain(a + b)|;
    SuffixOfSuffix(a' + b, a + b, n);
  }

  /** One append to a bounded deque is the same as truncating the longer history. */
  lemma AddEntryIsRetain<T>(s: seq<T>, x: T)
    requires |s| <= MAX_ENTRIES
    ensures AddEntry(s, x) == Retain(s + [x])
  {
    if |s| == MAX_ENTRIES {
      assert (s + [x])[1..] == s[1..] + [x];
    }
  }

  /**
   A bounded deque always holds exactly the most recent MAX_ENTRIES elements
   of everything ever appended to it.
   */
  lemma {:induction false} AppendAllKeepsNewest<T>(s: seq<T>, xs: seq<T>)
    requires |s| <= MAX_ENTRIES
    ensures AppendAll(s, xs) == Retain(s + xs)
    decreases |xs|
  {
    if xs == [] {
      assert s + xs == s;
    } else {
      var s' := AddEntry(s, xs[0]);
      calc {
        AppendAll(s, xs);
        AppendAll(s', xs[1..]);
        { AppendAllKeepsNewest(s', xs[1..]); }
        Retain(s' + xs[1..]);
        { AddEntryIsRetain(s, xs[0]); }
        Retain(Retain(s + [xs[0]]) + xs[1..]);
        { RetainAbsorbs(s + [xs[0]], xs[1..]); }
        Retain(s + [xs[0]] + xs[1..]);
        { assert s + [xs[0]] + xs[1..] == s + xs; }
        Retain(s + xs);
      }
    }
  }
}

=== FILE: maxspeed.dfy ===
/**
 Parsing the free-text `maxspeed` tag of a way: the integer value of its first
 whitespace-separated token, the way the filler does it with
 `int(maxspeed.split()[0]) if maxspeed else None`.
 */
module MaxSpeed {
  import opened Wrappers

  /** The characters Python's argument-less `str.split()` separates on. */
  predicate IsSpace(c: char) {
    || c == ' '
    || '\t' <= c <= '\r'
    || '\U{1C}' <= c <= '\U{1F}'
    || c == '\U{85}'
    || c == '\U{A0}'
    || c == '\U{1680}'
    || '\U{2000}' <= c <= '\U{200A}'
    || c == '\U{2028}'
    || c == '\U{2029}'
    || c == '\U{202F}'
    || c == '\U{205F}'
    || c == '\U{3000}'
  }

  predicate AllSpace(s: string) {
    forall i :: 0 <= i < |s| ==> IsSpace(s[i])
  }

  predicate NoSpace(s: string) {
    forall i :: 0 <= i < |s| ==> !IsSpace(s[i])
  }

  /** `s` is empty or starts with a separator, so a token before it ends there. */
  predicate EndsToken(s: string) {
    s == [] || IsSpace(s[0])
  }

  /** The longest prefix of `s` without a separator. */
  function TakeWord(s: string): (w: string)
    ensures |w| <= |s| && w == s[..|w|]
    ensures NoSpace(w)
    ensures EndsToken(s[|w|..])
  {
    if s == [] || IsSpace(s[0]) then [] else [s[0]] + TakeWord(s[1..])
  }

  /** `t` occurs in `s` after separators only, and a separator or the end follows it. */
  predicate TokenAt(s: string, t: string, k: int) {
    && 0 <= k <= |s| - |t|
    && AllSpace(s[..k])
    && s[k..k + |t|] == t
    && EndsToken(s[k + |t|..])
  }

  /** A token found after the first character is found in the whole text one place later. */
  lemma TokenAtShift(s: string, t: string, k: int)
    requires s != [] && IsSpace(s[0])
    requires TokenAt(s[1..], t, k)
    ensures TokenAt(s, t, k + 1)
  {
    assert s[..k + 1] == [s[0]] + s[1..][..k];
    assert s[k + 1..k + 1 + |t|] == s[1..][k..k + |t|];
    assert s[k + 1 + |t|..] == s[1..][k + |t|..];
  }

  /**
   The first token `split()` would return, or None when the text holds only
   separators (where `split()[0]` raises IndexError).
   */
  function FirstToken(s: string): (t: Option<string>)
    ensures t.None? <==> AllSpace(s)
    ensures t.Some? ==> t.value != [] && NoSpace(t.value)
    ensures t.Some? ==> exists k :: TokenAt(s, t.value, k)
  {
    if s == [] then None
    else if IsSpace(s[0]) then
      var t := FirstToken(s[1..]);
      if t.None? then t
      else
        var k :| TokenAt(s[1..], t.value, k);
        TokenAtShift(s, t.value, k);
        t
    else
      var w := TakeWord(s);
      assert TokenAt(s, w, 0);
      Some(w)
  }

  predicate IsDigit(c: char) {
    '0' <= c <= '9'
  }

  predicate AllDigits(s: string) {
    forall i :: 0 <= i < |s| ==> IsDigit(s[i])
  }

  /** The value of a string of decimal digits, most significant first. */
  function DigitsValue(d: string): nat
    requires AllDigits(d)
  {
    if d == [] then 0 else DigitsValue(d[..|d| - 1]) * 10 + (d[|d| - 1] as int - '0' as int)
  }

  /** An optional sign followed by at least one ASCII digit. */
  predicate IsIntLiteral(tok: string) {
    if tok != [] && (tok[0] == '+' || tok[0] == '-') then
      |tok| > 1 && AllDigits(tok[1..])
    else
      tok != [] && AllDigits(tok)
  }

  /**
   Python's `int(tok)` on a token, restricted to ASCII digits with an optional
   sign; None stands for the ValueError the filler catches.
   */
  function ParseInt(tok: string): (r: Option<int>)
    ensures r.Some? <==> IsIntLiteral(tok)
    ensures r.Some? && tok[0] == '-' ==> r.value <= 0
    ensures r.Some? && tok[0] != '-' ==> r.value >= 0
  {
    if tok != [] && (tok[0] == '+' || tok[0] == '-') then
      if |tok| > 1 && AllDigits(tok[1..]) then
        var v: int := DigitsValue(tok[1..]);
        Some(if tok[0] == '-' then -v else v)
      else None
    else if tok != [] && AllDigits(tok) then Some(DigitsValue(tok))
    else None
  }

  /**
   What parsing the tag yields: a known limit or none (the `speed_limit`
   variable), or the IndexError that escapes the inner handler.
   */
  datatype Parsed = Limit(limit: Option<int>) | IndexError

  /** Parsing an optional `maxspeed` tag. */
  function ParseMaxspeed(tag: Option<string>): (p: Parsed)
    ensures tag.None? || tag == Some("") ==> p == Limit(None)
    ensures p.IndexError? <==> tag.Some? && tag.value != [] && AllSpace(tag.value)
    ensures p.Limit? && p.limit.Some? <==>
              tag.Some? && FirstToken(tag.value).Some? && IsIntLiteral(FirstToken(tag.value).value)
    // the limit is `int` of the first token, whatever its spelling
    ensures tag.Some? && FirstToken(tag.value).Some? ==> p == Limit(ParseInt(FirstToken(tag.value).value))
  {
    if tag.None? || tag.value == [] then Limit(None)
    else match FirstToken(tag.value)
      case None => IndexError
      case Some(tok) => Limit(ParseInt(tok))
  }

  /** A leading '+' changes nothing: `int("+50") == int("50")`. */
  lemma ParseIntPlus(d: string)
    requires d != [] && AllDigits(d)
    ensures ParseInt("+" + d) == ParseInt(d)
  {
    assert ("+" + d)[1..] == d;
  }

  /** A leading '-' negates: `int("-50") == -int("50")`. */
  lemma ParseIntMinus(d: string)
    requires d != [] && AllDigits(d)
    ensures ParseInt(d).Some? && ParseInt("-" + d) == Some(-ParseInt(d).value)
  {
    assert ("-" + d)[1..] == d;
  }

  /** Leading zeros add nothing to the value of a digit string. */
  lemma {:induction false} LeadingZeroValue(d: string)
    requires AllDigits(d)
    ensures AllDigits("0" + d) && DigitsValue("0" + d) == DigitsValue(d)
    decreases |d|
  {
    var z := "0" + d;
    if d != [] {
      assert z[..|z| - 1] == "0" + d[..|d| - 1];
      assert z[|z| - 1] == d[|d| - 1];
      LeadingZeroValue(d[..|d| - 1]);
    }
  }

  /** A leading zero changes nothing: `int("050") == int("50")`. */
  lemma ParseIntLeadingZero(d: string)
    requires d != [] && AllDigits(d)
    ensures ParseInt("0" + d) == ParseInt(d)
  {
    LeadingZeroValue(d);
  }

  function DigitChar(d: nat): (c: char)
    requires d < 10
    ensures IsDigit(c) && c as int - '0' as int == d
  {
    ('0' as int + d) as char
  }

  /** The decimal text of a natural number. */
  function Decimal(n: nat): (s: string)
    ensures s != [] && AllDigits(s)
    ensures DigitsValue(s) == n
  {
    if n < 10 then [DigitChar(n)]
    else
      var s := Decimal(n / 10) + [DigitChar(n % 10)];
      assert s[..|s| - 1] == Decimal(n / 10);
      s
  }

  /** The decimal text of an integer, with a leading '-' when negative. */
  function Render(v: int): string {
    if v < 0 then "-" + Decimal(-v) else Decimal(v)
  }

  /** Rendering an integer and parsing it back gives the integer. */
  lemma ParseRender(v: int)
    ensures ParseInt(Render(v)) == Some(v)
    ensures Render(v) != [] && NoSpace(Render(v))
  {
    var r := Render(v);
    if v < 0 {
      assert r[1..] == Decimal(-v);
    }
  }

  /** A separator-free word followed by a separator (or nothing) is taken whole. */
  lemma {:induction false} TakeWordStopsAtSpace(w: string, rest: string)
    requires NoSpace(w)
    requires EndsToken(rest)
    ensures TakeWord(w + rest) == w
    decreases |w|
  {
    if w == [] {
      assert w + rest == rest;
    } else {
      assert (w + rest)[1..] == w[1..] + rest;
      TakeWordStopsAtSpace(w[1..], rest);
    }
  }

  /** Leading separators are skipped and the first word is the token. */
  lemma {:induction false} FirstTokenAfterSpaces(ws: string, w: string, rest: string)
    requires AllSpace(ws)
    requires w != [] && NoSpace(w)
    requires EndsToken(rest)
    ensures FirstToken(ws + w + rest) == Some(w)
    decreases |ws|
  {
    if ws == [] {
      assert ws + w + rest == w + rest;
      TakeWordStopsAtSpace(w, rest);
    } else {
      assert (ws + w + rest)[1..] == ws[1..] + w + rest;
      FirstTokenAfterSpaces(ws[1..], w, rest);
    }
  }

  /**
   A tag whose first token is the decimal text of `v`, with any leading
   separators and any trailing unit after a separator, yields the limit `v`:
   "50 mph" gives 50.
   */
  lemma MaxspeedRoundTrip(ws: string, v: int, rest: string)
    requires AllSpace(ws)
    requires EndsToken(rest)
    ensures ParseMaxspeed(Some(ws + Render(v) + rest)) == Limit(Some(v))
  {
    ParseRender(v);
    FirstTokenAfterSpaces(ws, Render(v), rest);
  }

  /**
   A tag made of separators, a word, and then a separator or nothing yields
   `int` of that word, however it is spelled: "050 mph" gives what "050" gives.
   */
  lemma MaxspeedFirstToken(ws: string, w: string, rest: string)
    requires AllSpace(ws)
    requires w != [] && NoSpace(w)
    requires EndsToken(rest)
    ensures ParseMaxspeed(Some(ws + w + rest)) == Limit(ParseInt(w))
  {
    FirstTokenAfterSpaces(ws, w, rest);
  }

  /** `int("050") == 50`. */
  lemma ParseZeroFifty()
    ensures ParseInt("050") == Some(50)
  {
    RenderFifty();
    ParseRender(50);
    ParseIntLeadingZero("50");
    assert "0" + "50" == "050";
  }

  /** A leading zero is no part of the value: "050 mph" gives 50. */
  lemma MaxspeedLeadingZero()
    ensures ParseMaxspeed(Some("050 mph")) == Limit(Some(50))
  {
    ParseZeroFifty();
    assert NoSpace("050") by {
      assert forall i :: 0 <= i < 3 ==> IsDigit("050"[i]);
    }
    assert "" + "050" + " mph" == "050 mph";
    MaxspeedFirstToken("", "050", " mph");
  }

  /** A plus sign is no part of the value: "+50" gives 50. */
  lemma MaxspeedPlusSign()
    ensures ParseMaxspeed(Some("+50")) == Limit(Some(50))
  {
    RenderFifty();
    ParseRender(50);
    ParseIntPlus("50");
    assert "" + "+50" + "" == "+50";
    MaxspeedFirstToken("", "+50", "");
  }

  /** The text of 50. */
  lemma RenderFifty()
    ensures Render(50) == "50"
  {
    assert DigitChar(5) == '5';
    assert DigitChar(0) == '0';
    assert Decimal(5) == "5";
    assert Decimal(50) == Decimal(5) + [DigitChar(0)];
  }

  /** "50 mph" gives 50. */
  lemma MaxspeedWithUnit()
    ensures ParseMaxspeed(Some("50 mph")) == Limit(Some(50))
  {
    assert "" + "50" + " mph" == "50 mph";
    FirstTokenAfterSpaces("", "50", " mph");
    RenderFifty();
    ParseRender(50);
  }

  /** "50" gives 50. */
  lemma MaxspeedBareNumber()
    ensures ParseMaxspeed(Some("50")) == Limit(Some(50))
  {
    RenderFifty();
    MaxspeedRoundTrip("", 50, "");
    assert "" + Render(50) + "" == "50";
  }

  /** A unit glued to the number makes the token no integer: "50mph" gives no limit. */
  lemma MaxspeedGluedUnit()
    ensures ParseMaxspeed(Some("50mph")) == Limit(None)
  {
    TakeWordStopsAtSpace("50mph", "");
    assert "50mph" + "" == "50mph";
    assert !IsDigit("50mph"[2]);
  }

  /** A word instead of a number gives no limit: "none". */
  lemma MaxspeedWord()
    ensures ParseMaxspeed(Some("none")) == Limit(None)
  {
    TakeWordStopsAtSpace("none", "");
    assert "none" + "" == "none";
    assert !IsDigit("none"[0]);
  }
}

=== FILE: overpass.dfy ===
/**
 The two Overpass lookups after the reply has been decoded: choosing the first
 way among the returned elements and reading its `maxspeed` tag.
 */
module Overpass {
  import opened Wrappers
  import opened MaxSpeed

  /** One element of the reply's `elements` list. */
  datatype Element = Element(kind: string, id: Option<int>, maxspeed: Option<string>)

  /**
   A reply: `Failed` covers every exception the lookups swallow (timeout,
   HTTP error status, undecodable body); a body without `elements` is `Elements([])`.
   */
  datatype Reply = Failed | Elements(elements: seq<Element>)

  predicate IsWay(e: Element) {
    e.kind == "way"
  }

  /** The way elements, in reply order. */
  function Ways(es: seq<Element>): (ws: seq<Element>)
    ensures |ws| <= |es|
    ensures forall i :: 0 <= i < |ws| ==> IsWay(ws[i])
    ensures forall e :: e in es && IsWay(e) <==> e in ws
  {
    if es == [] then []
    else (if IsWay(es[0]) then [es[0]] else []) + Ways(es[1..])
  }

  /** `k` is the position of the first way element. */
  predicate FirstWayAt(es: seq<Element>, k: int) {
    0 <= k < |es| && IsWay(es[k]) && forall j :: 0 <= j < k ==> !IsWay(es[j])
  }

  /** The way-bounding-box lookup: the id and known limit of the first way, if any. */
  function FetchSegments(reply: Reply): (r: Option<(Option<int>, Option<int>)>)
    ensures reply.Failed? ==> r.None?
  {
    match reply
    case Failed => None
    case Elements(es) =>
      var ways := Ways(es);
      if ways == [] then None
      else match ParseMaxspeed(ways[0].maxspeed)
        case IndexError => None
        case Limit(l) => Some((ways[0].id, l))
  }

  /** The by-id lookup: the known limit of the first way, if any. */
  function FetchSpeedLimit(reply: Reply): (r: Option<int>)
    ensures reply.Failed? ==> r.None?
  {
    match reply
    case Failed => None
    case Elements(es) =>
      var ways := Ways(es);
      if ways == [] then None
      else match ParseMaxspeed(ways[0].maxspeed)
        case IndexError => None
        case Limit(l) => l
  }

  /** The first way of the reply heads the filtered list. */
  lemma {:induction false} FirstWayHeadsWays(es: seq<Element>, k: int)
    requires FirstWayAt(es, k)
    ensures Ways(es) != [] && Ways(es)[0] == es[k]
    decreases k
  {
    if k > 0 {
      assert FirstWayAt(es[1..], k - 1);
      FirstWayHeadsWays(es[1..], k - 1);
    }
  }

  /** Some element is a way exactly when there is a first one. */
  lemma {:induction false} FirstWayExists(es: seq<Element>)
    ensures (exists i :: 0 <= i < |es| && IsWay(es[i])) <==> (exists k :: FirstWayAt(es, k))
    decreases |es|
  {
    if es != [] && !IsWay(es[0]) {
      FirstWayExists(es[1..]);
      if exists i :: 0 <= i < |es| && IsWay(es[i]) {
        var i :| 0 <= i < |es| && IsWay(es[i]);
        assert IsWay(es[1..][i - 1]);
        var k :| FirstWayAt(es[1..], k);
        assert FirstWayAt(es, k + 1);
      }
    } else if es != [] {
      assert FirstWayAt(es, 0);
    }
  }

  /**
   Both lookups read the first way in reply order, ignoring every other
   element; the id may be absent, and a whitespace-only tag makes the whole
   lookup fail.
   */
  lemma LookupsReadFirstWay(es: seq<Element>, k: int)
    requires FirstWayAt(es, k)
    ensures FetchSegments(Elements(es)) ==
              match ParseMaxspeed(es[k].maxspeed)
              case IndexError => None
              case Limit(l) => Some((es[k].id, l))
    ensures FetchSpeedLimit(Elements(es)) ==
              match ParseMaxspeed(es[k].maxspeed)
              case IndexError => None
              case Limit(l) => l
  {
    FirstWayHeadsWays(es, k);
  }

  /**
   A decoded reply yields no segment exactly when it holds no way element, or
   its first way's tag is whitespace only.
   */
  lemma SegmentMissingIff(es: seq<Element>)
    ensures FetchSegments(Elements(es)).None? <==>
              || (forall i :: 0 <= i < |es| ==> !IsWay(es[i]))
              || (exists k :: FirstWayAt(es, k) && ParseMaxspeed(es[k].maxspeed).IndexError?)
  {
    FirstWayExists(es);
    if k :| FirstWayAt(es, k) {
      LookupsReadFirstWay(es, k);
    }
  }

  /** On the same reply the two lookups report the same known limit. */
  lemma LookupsAgree(reply: Reply)
    ensures FetchSegments(reply).Some? ==> FetchSpeedLimit(reply) == FetchSegments(reply).value.1
    ensures FetchSegments(reply).None? ==> FetchSpeedLimit(reply).None?
  {
  }
}

=== FILE: reconcile.dfy ===
/**
 The reconciliation pass (`update_speed_limits`): revalidating the filtered
 dataset against the by-id lookup (phase A), then resolving every raw
 observation to a way and keeping the ways that lack an official limit
 (phase B), both cancelled as soon as the device reports it has started.
 */
module Reconcile {
  import opened Wrappers
  import opened Records
  import opened SortedSnapshot
  import Bounded

  /** Which loop polls the "started" flag. */
  datatype Phase = Revalidation | Resolution

  /** The by-id lookup: the way's official limit, or None (unknown or failed). */
  type IdLookup = int -> Option<int>

  /** The bounding-box lookup: None on failure, else the first way's id and official limit. */
  type BoxLookup = (Coord, Coord) -> Option<(Option<int>, Option<int>)>

  /** The "started" flag read before processing entry `i` of a phase. */
  type Started = (Phase, nat) -> bool

  /** The first index from `i` at which the phase is cancelled, or `n` when it runs to the end. */
  function CancelIndex(startedAt: Started, phase: Phase, i: nat, n: nat): (c: nat)
    requires i <= n
    ensures i <= c <= n
    ensures c < n ==> startedAt(phase, c)
    ensures forall j :: i <= j < c ==> !startedAt(phase, j)
    decreases n - i
  {
    if i == n || startedAt(phase, i) then i else CancelIndex(startedAt, phase, i + 1, n)
  }

  // ---------------------------------------------------------------- phase A

  /** An entry survives revalidation: it has an id and the lookup still reports no limit. */
  predicate StillMissing(e: Segment, lookupId: IdLookup) {
    Truthy(e.segmentId) && lookupId(e.segmentId.value).None?
  }

  /** Reference definition of phase A's outcome: the surviving entries, in order. */
  function Retained(s: seq<Segment>, lookupId: IdLookup): (r: seq<Segment>)
    ensures |r| <= |s|
    ensures forall e :: e in r <==> e in s && StillMissing(e, lookupId)
  {
    if s == [] then []
    else (if StillMissing(s[0], lookupId) then [s[0]] else []) + Retained(s[1..], lookupId)
  }

  /** The phase A loop from entry `i`, with `kept` the entries retained so far. */
  function RevalidateFrom(entries: seq<Segment>, lookupId: IdLookup, startedAt: Started,
                          i: nat, kept: seq<Segment>): (r: seq<Segment>)
    requires i <= |entries|
    ensures |r| <= |kept| + (|entries| - i)
    ensures |kept| <= Bounded.MAX_ENTRIES ==> |r| <= Bounded.MAX_ENTRIES
    ensures forall x :: x in r ==> x in kept || (x in entries[i..] && StillMissing(x, lookupId))
    ensures |kept| + (|entries| - i) <= Bounded.MAX_ENTRIES ==>
              r == kept + Retained(entries[i..CancelIndex(startedAt, Revalidation, i, |entries|)], lookupId)
    decreases |entries| - i
  {
    if i == |entries| || startedAt(Revalidation, i) then
      assert entries[i..i] == [];
      kept
    else
      var kept' := if StillMissing(entries[i], lookupId) then Bounded.AddEntry(kept, entries[i]) else kept;
      RevalidateStep(entries, lookupId, startedAt, i, kept);
      RevalidateFrom(entries, lookupId, startedAt, i + 1, kept')
  }

  /** How one uncancelled Phase A iteration relates the retained entries from `i` and from `i + 1`. */
  lemma RevalidateStep(entries: seq<Segment>, lookupId: IdLookup, startedAt: Started, i: nat, kept: seq<Segment>)
    requires i < |entries| && !startedAt(Revalidation, i)
    ensures entries[i..] == [entries[i]] + entries[i + 1..]
    ensures var c := CancelIndex(startedAt, Revalidation, i, |entries|);
            && c == CancelIndex(startedAt, Revalidation, i + 1, |entries|)
            && (|kept| + (|entries| - i) <= Bounded.MAX_ENTRIES ==>
                  kept + Retained(entries[i..c], lookupId)
                    == (if StillMissing(entries[i], lookupId) then Bounded.AddEntry(kept, entries[i]) else kept)
                       + Retained(entries[i + 1..c], lookupId))
  {
    var c := CancelIndex(startedAt, Revalidation, i, |entries|);
    assert entries[i..c][1..] == entries[i + 1..c];
    assert entries[i..c][0] == entries[i];
    if StillMissing(entries[i], lookupId) {
      assert kept + ([entries[i]] + Retained(entries[i + 1..c], lookupId))
               == (kept + [entries[i]]) + Retained(entries[i + 1..c], lookupId);
    }
  }

  /** Phase A: the retained entries, up to the cancellation point. */
  function Revalidate(filtered: seq<Segment>, lookupId: IdLookup, startedAt: Started): (r: seq<Segment>)
    ensures |r| <= |filtered|
    ensures |r| <= Bounded.MAX_ENTRIES
    ensures forall x :: x in r ==> x in filtered && StillMissing(x, lookupId)
    ensures |filtered| <= Bounded.MAX_ENTRIES ==>
              r == Retained(filtered[..CancelIndex(startedAt, Revalidation, 0, |filtered|)], lookupId)
  {
    assert filtered[0..] == filtered;
    RevalidateFrom(filtered, lookupId, startedAt, 0, [])
  }

  /** Retaining keeps the order, so distinct ids stay distinct. */
  lemma {:induction false} RetainedKeepsUnique(s: seq<Segment>, lookupId: IdLookup)
    requires UniqueIds(s)
    ensures UniqueIds(Retained(s, lookupId))
    ensures AllTruthy(Retained(s, lookupId))
    decreases |s|
  {
    var r := Retained(s, lookupId);
    if s != [] {
      RetainedKeepsUnique(s[1..], lookupId);
      var tail := Retained(s[1..], lookupId);
      if StillMissing(s[0], lookupId) {
        assert r == [s[0]] + tail;
        forall j | 0 < j < |r|
          ensures r[0].segmentId != r[j].segmentId
        {
          assert r[j] in s[1..];
          var k :| 0 <= k < |s[1..]| && s[1..][k] == r[j];
          assert s[k + 1] == r[j];
        }
      }
    }
    forall i | 0 <= i < |r|
      ensures Truthy(r[i].segmentId)
    {
      assert r[i] in r;
    }
  }

  /** Entries that all survive are retained unchanged. */
  lemma {:induction false} RetainedAllSurvive(s: seq<Segment>, lookupId: IdLookup)
    requires forall i :: 0 <= i < |s| ==> StillMissing(s[i], lookupId)
    ensures Retained(s, lookupId) == s
    decreases |s|
  {
    if s != [] {
      assert forall i :: 0 <= i < |s[1..]| ==> s[1..][i] == s[i + 1];
      RetainedAllSurvive(s[1..], lookupId);
      assert StillMissing(s[0], lookupId);
      assert Retained(s, lookupId) == [s[0]] + s[1..];
      assert s == [s[0]] + s[1..];
    }
  }

  /** Retaining twice with the same lookup answers retains nothing more. */
  lemma RetainedIdempotent(s: seq<Segment>, lookupId: IdLookup)
    ensures Retained(Retained(s, lookupId), lookupId) == Retained(s, lookupId)
  {
    var r := Retained(s, lookupId);
    forall i | 0 <= i < |r|
      ensures StillMissing(r[i], lookupId)
    {
      assert r[i] in r;
    }
    RetainedAllSurvive(r, lookupId);
  }

  /**
   Phase A run twice in a row, uncancelled and with unchanged lookup answers,
   gives the same retained entries both times.
   */
  lemma {:induction false} RevalidateIdempotent(filtered: seq<Segment>, lookupId: IdLookup, startedAt: Started)
    requires |filtered| <= Bounded.MAX_ENTRIES
    requires forall i: nat :: !startedAt(Revalidation, i)
    ensures Revalidate(Revalidate(filtered, lookupId, startedAt), lookupId, startedAt)
              == Revalidate(filtered, lookupId, startedAt)
  {
    var once := Revalidate(filtered, lookupId, startedAt);
    assert CancelIndex(startedAt, Revalidation, 0, |filtered|) == |filtered|;
    assert CancelIndex(startedAt, Revalidation, 0, |once|) == |once|;
    assert filtered[..|filtered|] == filtered;
    assert once[..|once|] == once;
    RetainedIdempotent(filtered, lookupId);
  }

  // ---------------------------------------------------------------- phase B

  /**
   The way a raw observation fills, if any: both coordinates present, the box
   lookup answered, the way has an id, and its official limit is absent or 0.
   */
  function Candidate(e: Observation, lookupBox: BoxLookup): (id: Option<int>)
    ensures id.Some? ==> id.value != 0
  {
    if e.startCoords.None? || e.endCoords.None? then None
    else match lookupBox(e.startCoords.value, e.endCoords.value)
      case None => None
      case Some(found) =>
        if Truthy(found.0) && !Truthy(found.1) then found.0 else None
  }

  /**
   The iteration for `e` gets as far as the periodic snapshot (line 195): both
   coordinates are present, and the box lookup failed or found a way to fill.
   Every other iteration `continue`s before it.
   */
  predicate ReachesCheckpoint(e: Observation, lookupBox: BoxLookup, seen: set<int>) {
    && e.startCoords.Some? && e.endCoords.Some?
    && (|| lookupBox(e.startCoords.value, e.endCoords.value).None?
        || (Candidate(e, lookupBox).Some? && Candidate(e, lookupBox).value !in seen))
  }

  /** The filtered entry an observation contributes for way `id`. */
  function Fill(e: Observation, id: int): Segment {
    Segment(Some(id), e.source, e.speedLimit)
  }

  /** The ways some observation of `raw` fills. */
  function CandidateIds(raw: seq<Observation>, lookupBox: BoxLookup): (ids: set<int>)
    ensures forall j :: 0 <= j < |raw| && Candidate(raw[j], lookupBox).Some? ==>
              Candidate(raw[j], lookupBox).value in ids
    ensures forall id :: id in ids ==>
              exists j :: 0 <= j < |raw| && Candidate(raw[j], lookupBox) == Some(id)
  {
    if raw == [] then {}
    else
      var rest := CandidateIds(raw[1..], lookupBox);
      assert forall j :: 1 <= j < |raw| ==> raw[j] == raw[1..][j - 1];
      var c := Candidate(raw[0], lookupBox);
      (if c.Some? then {c.value} else {}) + rest
  }

  /** Phase B's working state: the filtered dataset, the ids already seen, the snapshots written. */
  datatype Progress = Progress(filtered: seq<Segment>, seen: set<int>, snapshots: seq<seq<Segment>>)

  /** A written snapshot is strictly ordered by id and every entry has one. */
  predicate GoodSnapshot(s: seq<Segment>) {
    StrictlySorted(s) && AllTruthy(s)
  }

  /**
   What phase B maintains: ids present, distinct and recorded in `seen`, the
   dataset within capacity, and every snapshot so far well ordered.
   */
  predicate Consistent(p: Progress) {
    && AllTruthy(p.filtered)
    && UniqueIds(p.filtered)
    && Ids(p.filtered) <= p.seen
    && |p.filtered| <= Bounded.MAX_ENTRIES
    && forall k :: 0 <= k < |p.snapshots| ==> GoodSnapshot(p.snapshots[k])
  }

  /** Every 100th processed observation writes a sorted snapshot. */
  function Checkpoint(p: Progress, count: nat): (r: Progress)
    ensures r.filtered == p.filtered && r.seen == p.seen
    // one snapshot, of the current dataset, exactly on a count divisible by 100
    ensures |r.snapshots| == |p.snapshots| + (if count % 100 == 0 then 1 else 0)
    ensures r.snapshots[..|p.snapshots|] == p.snapshots
    ensures count % 100 == 0 ==> r.snapshots[|p.snapshots|] == Snapshot(p.filtered)
  {
    if count % 100 == 0 then p.(snapshots := p.snapshots + [Snapshot(p.filtered)]) else p
  }

  /**
   Reference definition of phase B's additions: the fill of every observation
   whose candidate way was not seen before, in order, so the first observation
   of a way wins and later ones add nothing.
   */
  function NewFills(raw: seq<Observation>, lookupBox: BoxLookup, seen: set<int>): (f: seq<Segment>)
    ensures |f| <= |raw|
    ensures forall x :: x in f ==>
              exists j :: 0 <= j < |raw| && Candidate(raw[j], lookupBox).Some?
                          && x == Fill(raw[j], Candidate(raw[j], lookupBox).value)
    ensures forall x :: x in f ==> Truthy(x.segmentId) && x.segmentId.value !in seen
    ensures UniqueIds(f)
    decreases |raw|
  {
    if raw == [] then []
    else
      var c := Candidate(raw[0], lookupBox);
      if c.Some? && c.value !in seen then
        var rest := NewFills(raw[1..], lookupBox, seen + {c.value});
        var f := [Fill(raw[0], c.value)] + rest;
        assert forall j :: 0 < j < |f| ==> f[j] in rest;
        assert forall j :: 0 <= j < |raw[1..]| ==> raw[1..][j] == raw[j + 1];
        f
      else
        assert forall j :: 0 <= j < |raw[1..]| ==> raw[1..][j] == raw[j + 1];
        NewFills(raw[1..], lookupBox, seen)
  }

  /**
   The fill a way receives is that of its first observation: once the first
   observation naming way `id` has been met, no other entry for `id` is added.
   */
  lemma {:induction false} FirstObservationWins(raw: seq<Observation>, lookupBox: BoxLookup, seen: set<int>,
                                                j: nat, id: int)
    requires j < |raw| && Candidate(raw[j], lookupBox) == Some(id) && id !in seen
    requires forall k :: 0 <= k < j ==> Candidate(raw[k], lookupBox) != Some(id)
    ensures Fill(raw[j], id) in NewFills(raw, lookupBox, seen)
    ensures forall x :: x in NewFills(raw, lookupBox, seen) && x.segmentId == Some(id) ==> x == Fill(raw[j], id)
    decreases j
  {
    var c := Candidate(raw[0], lookupBox);
    if j > 0 {
      forall k | 0 <= k < j - 1
        ensures Candidate(raw[1..][k], lookupBox) != Some(id)
      {
        assert raw[1..][k] == raw[k + 1];
      }
      assert raw[1..][j - 1] == raw[j];
      if c.Some? && c.value !in seen {
        assert c.value != id;
        FirstObservationWins(raw[1..], lookupBox, seen + {c.value}, j - 1, id);
      } else {
        FirstObservationWins(raw[1..], lookupBox, seen, j - 1, id);
      }
    }
  }

  /**
   One iteration of the phase B loop, `count` being the 1-based position of
   `e`. The iterations that `continue` (missing coordinates, no id, a known
   limit, an id already seen) skip the periodic snapshot.
   */
  function ResolveOne(e: Observation, lookupBox: BoxLookup, count: nat, p: Progress): (r: Progress)
    // a way seen for the first time gets the observation's fill; otherwise the dataset is untouched
    ensures var c := Candidate(e, lookupBox);
            && r.seen == p.seen + (if c.Some? then {c.value} else {})
            && r.filtered == (if c.Some? && c.value !in p.seen then Bounded.AddEntry(p.filtered, Fill(e, c.value))
                              else p.filtered)
    // at most one snapshot, only on every 100th observation, of the dataset after the iteration
    ensures |p.snapshots| <= |r.snapshots| <= |p.snapshots| + 1
    ensures r.snapshots[..|p.snapshots|] == p.snapshots
    ensures |r.snapshots| > |p.snapshots| ==> count % 100 == 0 && r.snapshots[|p.snapshots|] == Snapshot(r.filtered)
    // the snapshot is written exactly on the 100th observations that do not `continue`:
    // coordinates present, and the lookup failed or found a way to fill
    ensures |r.snapshots| > |p.snapshots| <==> count % 100 == 0 && ReachesCheckpoint(e, lookupBox, p.seen)
  {
    var c := Candidate(e, lookupBox);
    if e.startCoords.None? || e.endCoords.None? then p
    else if lookupBox(e.startCoords.value, e.endCoords.value).None? then Checkpoint(p, count)
    // the way has no id, already has a limit, or was seen before
    else if c.None? || c.value in p.seen then p
    else Checkpoint(Progress(Bounded.AddEntry(p.filtered, Fill(e, c.value)), p.seen + {c.value}, p.snapshots), count)
  }

  /** One phase B iteration keeps the invariant, and keeps `seen` equal to the ids while nothing is evicted. */
  lemma ResolveOneKeepsConsistent(e: Observation, lookupBox: BoxLookup, count: nat, p: Progress)
    ensures Consistent(p) ==> Consistent(ResolveOne(e, lookupBox, count, p))
    ensures Consistent(p) && Ids(p.filtered) == p.seen && |p.filtered| < Bounded.MAX_ENTRIES ==>
              Ids(ResolveOne(e, lookupBox, count, p).filtered) == ResolveOne(e, lookupBox, count, p).seen
  {
    if Consistent(p) {
      var c := Candidate(e, lookupBox);
      var r := ResolveOne(e, lookupBox, count, p);
      var mid := Progress(r.filtered, r.seen, p.snapshots);
      if c.Some? && c.value !in p.seen {
        AddKeepsConsistent(p, e, c.value);
      } else {
        assert mid == p;
      }
      if |r.snapshots| > |p.snapshots| {
        assert r.snapshots == p.snapshots + [Snapshot(r.filtered)];
        assert r == Checkpoint(mid, count);
        CheckpointKeeps(mid, count);
      } else {
        assert r == mid;
      }
    }
  }

  /** Taking a checkpoint keeps phase B's invariant. */
  lemma {:induction false} CheckpointKeeps(p: Progress, count: nat)
    ensures Checkpoint(p, count).filtered == p.filtered && Checkpoint(p, count).seen == p.seen
    ensures Consistent(p) ==> Consistent(Checkpoint(p, count))
  {
    if Consistent(p) && count % 100 == 0 {
      SortKeepsUnique(p.filtered);
      SnapshotSortsEntries(p.filtered);
    }
  }

  /** Appending an unseen way keeps ids present, distinct and recorded. */
  lemma AddKeepsConsistent(p: Progress, e: Observation, id: int)
    requires id != 0 && id !in p.seen
    ensures var f := Bounded.AddEntry(p.filtered, Fill(e, id));
            && (forall x :: x in f ==> x in p.filtered || x == Fill(e, id))
            && (Consistent(p) ==> Consistent(Progress(f, p.seen + {id}, p.snapshots)))
            && (Consistent(p) && Ids(p.filtered) == p.seen && |p.filtered| < Bounded.MAX_ENTRIES ==>
                  Ids(f) == p.seen + {id})
  {
    var s := p.filtered;
    var x := Fill(e, id);
    var f := Bounded.AddEntry(s, x);
    if Consistent(p) {
      AddEntryKeepsUnique(s, x);
      forall i | 0 <= i < |f|
        ensures Truthy(f[i].segmentId)
      {
        assert f[i] in f;
      }
      if Ids(s) == p.seen && |s| < Bounded.MAX_ENTRIES {
        assert f == s + [x];
        assert Ids(f) == Ids(s) + {id};
      }
    }
  }

  /** Appending an entry whose id is new keeps the ids distinct, with or without eviction. */
  lemma AddEntryKeepsUnique(s: seq<Segment>, x: Segment)
    requires UniqueIds(s) && x.segmentId.Some? && x.segmentId.value !in Ids(s)
    ensures UniqueIds(Bounded.AddEntry(s, x))
  {
    var f := Bounded.AddEntry(s, x);
    var base := if |s| < Bounded.MAX_ENTRIES then s else s[1..];
    assert f == base + [x];
    forall i, j | 0 <= i < j < |f|
      ensures f[i].segmentId != f[j].segmentId
    {
      if j == |f| - 1 {
        assert f[i] in s;
      } else if |s| >= Bounded.MAX_ENTRIES {
        assert f[i] == s[i + 1] && f[j] == s[j + 1];
      } else {
        assert f[i] == s[i] && f[j] == s[j];
      }
    }
  }

  /**
   Reference definition of the periodic snapshots of a phase B loop that
   started at observation `from` with dataset `filtered` and ids `seen`, for
   the observations `j` up to `c`. Observation `j` has count `j + 1`; it writes
   a snapshot when that count is a multiple of 100 and it reaches the
   checkpoint, and the snapshot is of the dataset after its own fill.
   */
  function PeriodicSnapshots(raw: seq<Observation>, lookupBox: BoxLookup, from: nat, j: nat, c: nat,
                             filtered: seq<Segment>, seen: set<int>): seq<seq<Segment>>
    requires from <= j <= c <= |raw|
  {
    Concat(SnapshotsOf(raw, lookupBox, from, filtered, seen), j, c)
  }

  /** The terms `term(j)` up to `term(c - 1)`, concatenated. */
  function Concat<T>(term: nat -> seq<T>, j: nat, c: nat): seq<T>
    decreases c - j
  {
    if j >= c then [] else term(j) + Concat(term, j + 1, c)
  }

  /** Concatenations of terms that agree pointwise agree. */
  lemma {:induction false} ConcatAgree<T>(t: nat -> seq<T>, u: nat -> seq<T>, j: nat, c: nat)
    requires forall k :: j <= k < c ==> t(k) == u(k)
    ensures Concat(t, j, c) == Concat(u, j, c)
    decreases c - j
  {
    if j < c {
      ConcatAgree(t, u, j + 1, c);
    }
  }

  /** The snapshot each observation writes, as a term of the concatenation. */
  function SnapshotsOf(raw: seq<Observation>, lookupBox: BoxLookup, from: nat, filtered: seq<Segment>,
                       seen: set<int>): nat -> seq<seq<Segment>>
  {
    k => if from <= k < |raw| then SnapshotAt(raw, lookupBox, from, k, filtered, seen) else []
  }

  /**
   The periodic snapshot observation `j` writes, if any, in a loop that started
   at `from`: it sees the ids of the observations before it and the dataset
   after its own fill.
   */
  function SnapshotAt(raw: seq<Observation>, lookupBox: BoxLookup, from: nat, j: nat,
                      filtered: seq<Segment>, seen: set<int>): (snap: seq<seq<Segment>>)
    requires from <= j < |raw|
    ensures |snap| <= 1
  {
    if (j + 1) % 100 == 0 && ReachesCheckpoint(raw[j], lookupBox, seen + CandidateIds(raw[from..j], lookupBox))
    then [Snapshot(Bounded.AppendAll(filtered, NewFills(raw[from..j + 1], lookupBox, seen)))]
    else []
  }

  /**
   The phase B loop from observation `i`. `c` below is where the pass stops:
   the first index at which the device reports it has started, else the end.
   */
  function ResolveFrom(raw: seq<Observation>, lookupBox: BoxLookup, startedAt: Started,
                       i: nat, p: Progress): (r: Progress)
    requires i <= |raw|
    // exactly the ways filled by processed observations are added to `seen`
    ensures r.seen == p.seen + CandidateIds(raw[i..CancelIndex(startedAt, Resolution, i, |raw|)], lookupBox)
    // the existing entries, then the first fill of every newly seen way, through the bounded deque
    ensures r.filtered == Bounded.AppendAll(p.filtered,
                            NewFills(raw[i..CancelIndex(startedAt, Resolution, i, |raw|)], lookupBox, p.seen))
    ensures |r.snapshots| >= |p.snapshots| && r.snapshots[..|p.snapshots|] == p.snapshots
    // the snapshots written are exactly the periodic ones of the processed observations
    ensures r.snapshots == p.snapshots + PeriodicSnapshots(raw, lookupBox, i, i, CancelIndex(startedAt, Resolution, i, |raw|),
                                                           p.filtered, p.seen)
    decreases |raw| - i
  {
    if i == |raw| || startedAt(Resolution, i) then
      assert raw[i..i] == [];
      p
    else
      var r := ResolveFrom(raw, lookupBox, startedAt, i + 1, ResolveOne(raw[i], lookupBox, i + 1, p));
      ResolveStepFills(raw, lookupBox, startedAt, i, p);
      ResolveStepSeen(raw, lookupBox, startedAt, i, p, r);
      ResolveStepSnapshots(raw, lookupBox, startedAt, i, p);
      r
  }

  /**
   Phase B keeps its invariant over the whole loop, and while nothing is
   evicted every filled way stays in the dataset.
   */
  lemma {:induction false} ResolveFromKeepsConsistent(raw: seq<Observation>, lookupBox: BoxLookup,
                                                      startedAt: Started, i: nat, p: Progress)
    requires i <= |raw|
    ensures Consistent(p) ==> Consistent(ResolveFrom(raw, lookupBox, startedAt, i, p))
    ensures Consistent(p) && Ids(p.filtered) == p.seen && |p.filtered| + (|raw| - i) <= Bounded.MAX_ENTRIES ==>
              Ids(ResolveFrom(raw, lookupBox, startedAt, i, p).filtered) == ResolveFrom(raw, lookupBox, startedAt, i, p).seen
    decreases |raw| - i
  {
    if i < |raw| && !startedAt(Resolution, i) {
      ResolveOneKeepsConsistent(raw[i], lookupBox, i + 1, p);
      ResolveFromKeepsConsistent(raw, lookupBox, startedAt, i + 1, ResolveOne(raw[i], lookupBox, i + 1, p));
    }
  }

  /**
   One uncancelled phase B iteration, for the dataset: appending the fills from
   `i + 1` to the dataset after iteration `i` is appending the fills from `i` to
   the dataset before it.
   */
  lemma ResolveStepFills(raw: seq<Observation>, lookupBox: BoxLookup, startedAt: Started, i: nat, p: Progress)
    requires i < |raw| && !startedAt(Resolution, i)
    ensures var p' := ResolveOne(raw[i], lookupBox, i + 1, p);
            Bounded.AppendAll(p'.filtered,
              NewFills(raw[i + 1..CancelIndex(startedAt, Resolution, i + 1, |raw|)], lookupBox, p'.seen))
            == Bounded.AppendAll(p.filtered,
                 NewFills(raw[i..CancelIndex(startedAt, Resolution, i, |raw|)], lookupBox, p.seen))
  {
    var c := CancelIndex(startedAt, Resolution, i, |raw|);
    assert c == CancelIndex(startedAt, Resolution, i + 1, |raw|);
    FillsStep(raw, lookupBox, i, c, i + 1, p);
  }

  /**
   Appending the fills of `raw[i + 1..k]` after iteration `i` is appending the
   fills of `raw[i..k]` before it, whatever the iteration's count.
   */
  lemma FillsStep(raw: seq<Observation>, lookupBox: BoxLookup, i: nat, k: nat, count: nat, p: Progress)
    requires i < k <= |raw|
    ensures var p' := ResolveOne(raw[i], lookupBox, count, p);
            Bounded.AppendAll(p'.filtered, NewFills(raw[i + 1..k], lookupBox, p'.seen))
            == Bounded.AppendAll(p.filtered, NewFills(raw[i..k], lookupBox, p.seen))
  {
    var cand := Candidate(raw[i], lookupBox);
    assert raw[i..k][0] == raw[i];
    assert raw[i..k][1..] == raw[i + 1..k];
    if cand.Some? && cand.value !in p.seen {
      var rest := NewFills(raw[i + 1..k], lookupBox, p.seen + {cand.value});
      var f := [Fill(raw[i], cand.value)] + rest;
      assert f[0] == Fill(raw[i], cand.value) && f[1..] == rest;
    } else if cand.Some? {
      assert p.seen + {cand.value} == p.seen;
    }
  }

  /** The ids of `raw[i..k]` are those of its first observation and those of the rest. */
  lemma CandidateIdsStep(raw: seq<Observation>, lookupBox: BoxLookup, i: nat, k: nat)
    requires i < k <= |raw|
    ensures var c := Candidate(raw[i], lookupBox);
            CandidateIds(raw[i..k], lookupBox)
            == (if c.Some? then {c.value} else {}) + CandidateIds(raw[i + 1..k], lookupBox)
  {
    assert raw[i..k][0] == raw[i];
    assert raw[i..k][1..] == raw[i + 1..k];
  }

  /**
   One uncancelled phase B iteration, for the periodic snapshots: the snapshot
   the iteration writes, followed by those the loop from `i + 1` writes, are
   those the loop from `i` writes.
   */
  lemma ResolveStepSnapshots(raw: seq<Observation>, lookupBox: BoxLookup, startedAt: Started, i: nat, p: Progress)
    requires i < |raw| && !startedAt(Resolution, i)
    ensures var p' := ResolveOne(raw[i], lookupBox, i + 1, p);
            var c := CancelIndex(startedAt, Resolution, i, |raw|);
            p'.snapshots + PeriodicSnapshots(raw, lookupBox, i + 1, i + 1, c, p'.filtered, p'.seen)
            == p.snapshots + PeriodicSnapshots(raw, lookupBox, i, i, c, p.filtered, p.seen)
  {
    var p' := ResolveOne(raw[i], lookupBox, i + 1, p);
    var c := CancelIndex(startedAt, Resolution, i, |raw|);
    assert c == CancelIndex(startedAt, Resolution, i + 1, |raw|);
    var head := SnapshotAt(raw, lookupBox, i, i, p.filtered, p.seen);
    var rest := PeriodicSnapshots(raw, lookupBox, i, i + 1, c, p.filtered, p.seen);
    PeriodicHead(raw, lookupBox, i, c, p.filtered, p.seen);
    FirstSnapshot(raw, lookupBox, i, i + 1, p);
    var after := SnapshotsOf(raw, lookupBox, i + 1, p'.filtered, p'.seen);
    var before := SnapshotsOf(raw, lookupBox, i, p.filtered, p.seen);
    forall k | i + 1 <= k < c
      ensures after(k) == before(k)
    {
      ShiftAgrees(raw, lookupBox, i, k, p);
    }
    ConcatAgree(after, before, i + 1, c);
    calc {
      p'.snapshots + PeriodicSnapshots(raw, lookupBox, i + 1, i + 1, c, p'.filtered, p'.seen);
      (p.snapshots + head) + rest;
      { ConcatAssociates(p.snapshots, head, rest); }
      p.snapshots + (head + rest);
      p.snapshots + PeriodicSnapshots(raw, lookupBox, i, i, c, p.filtered, p.seen);
    }
  }

  lemma ConcatAssociates<T>(a: seq<T>, b: seq<T>, c: seq<T>)
    ensures (a + b) + c == a + (b + c)
  {
  }

  /** The first periodic snapshot of a loop starting at `i` is decided by observation `i` alone. */
  lemma PeriodicHead(raw: seq<Observation>, lookupBox: BoxLookup, i: nat, c: nat, filtered: seq<Segment>,
                     seen: set<int>)
    requires i < c <= |raw|
    ensures PeriodicSnapshots(raw, lookupBox, i, i, c, filtered, seen)
            == SnapshotAt(raw, lookupBox, i, i, filtered, seen) + PeriodicSnapshots(raw, lookupBox, i, i + 1, c, filtered, seen)
  {
  }

  /** The snapshot iteration `i` writes, if any, is that of the reference definition. */
  lemma FirstSnapshot(raw: seq<Observation>, lookupBox: BoxLookup, i: nat, count: nat, p: Progress)
    requires i < |raw| && count == i + 1
    ensures var p' := ResolveOne(raw[i], lookupBox, count, p);
            p'.snapshots == p.snapshots + SnapshotAt(raw, lookupBox, i, i, p.filtered, p.seen)
  {
    var p' := ResolveOne(raw[i], lookupBox, count, p);
    assert raw[i..i] == [];
    assert p.seen + CandidateIds(raw[i..i], lookupBox) == p.seen;
    FillsStep(raw, lookupBox, i, i + 1, count, p);
    assert raw[i + 1..i + 1] == [];
    assert NewFills([], lookupBox, p'.seen) == [];
    if |p'.snapshots| > |p.snapshots| {
      assert p'.snapshots == p'.snapshots[..|p.snapshots|] + [p'.snapshots[|p.snapshots|]];
    } else {
      assert p'.snapshots == p'.snapshots[..|p.snapshots|];
    }
  }


  /**
   After iteration `i`, observation `j` sees the same ids and the same dataset,
   and so writes the same snapshot, whether the loop is taken to start at `i`
   or at `i + 1`.
   */
  lemma ShiftAgrees(raw: seq<Observation>, lookupBox: BoxLookup, i: nat, j: nat, p: Progress)
    requires i < j < |raw|
    ensures var p' := ResolveOne(raw[i], lookupBox, i + 1, p);
            SnapshotAt(raw, lookupBox, i + 1, j, p'.filtered, p'.seen) == SnapshotAt(raw, lookupBox, i, j, p.filtered, p.seen)
  {
    var p' := ResolveOne(raw[i], lookupBox, i + 1, p);
    CandidateIdsStep(raw, lookupBox, i, j);
    assert p'.seen + CandidateIds(raw[i + 1..j], lookupBox) == p.seen + CandidateIds(raw[i..j], lookupBox);
    FillsStep(raw, lookupBox, i, j + 1, i + 1, p);
  }

  /**
   One uncancelled phase B iteration, for the seen set and the snapshots: what
   the loop from `i + 1` adds to them, the loop from `i` adds as well.
   */
  lemma ResolveStepSeen(raw: seq<Observation>, lookupBox: BoxLookup, startedAt: Started, i: nat, p: Progress,
                        r: Progress)
    requires i < |raw| && !startedAt(Resolution, i)
    requires var p' := ResolveOne(raw[i], lookupBox, i + 1, p);
             && r.seen == p'.seen + CandidateIds(raw[i + 1..CancelIndex(startedAt, Resolution, i + 1, |raw|)], lookupBox)
             && |r.snapshots| >= |p'.snapshots| && r.snapshots[..|p'.snapshots|] == p'.snapshots
    ensures r.seen == p.seen + CandidateIds(raw[i..CancelIndex(startedAt, Resolution, i, |raw|)], lookupBox)
    ensures |r.snapshots| >= |p.snapshots| && r.snapshots[..|p.snapshots|] == p.snapshots
  {
    var p' := ResolveOne(raw[i], lookupBox, i + 1, p);
    var c := CancelIndex(startedAt, Resolution, i, |raw|);
    assert c == CancelIndex(startedAt, Resolution, i + 1, |raw|);
    assert raw[i..c][0] == raw[i];
    assert raw[i..c][1..] == raw[i + 1..c];
    assert r.snapshots[..|p.snapshots|] == r.snapshots[..|p'.snapshots|][..|p.snapshots|];
  }

  /**
   Phase B's outcome depends only on the observations it processed: the
   observations from the cancellation point on are left for a later pass.
   */
  lemma {:induction false} ResolveIgnoresUnprocessed(raw: seq<Observation>, lookupBox: BoxLookup,
                                                     startedAt: Started, i: nat, p: Progress)
    requires i <= |raw|
    ensures var c := CancelIndex(startedAt, Resolution, i, |raw|);
            ResolveFrom(raw, lookupBox, startedAt, i, p) == ResolveFrom(raw[..c], lookupBox, startedAt, i, p)
    decreases |raw| - i
  {
    var c := CancelIndex(startedAt, Resolution, i, |raw|);
    if i == |raw| || startedAt(Resolution, i) {
    } else {
      assert raw[..c][i] == raw[i];
      ResolveIgnoresUnprocessed(raw, lookupBox, startedAt, i + 1, ResolveOne(raw[i], lookupBox, i + 1, p));
      assert CancelIndex(startedAt, Resolution, i + 1, |raw|) == c;
      assert CancelIndex(startedAt, Resolution, i + 1, |raw[..c]|) == c by {
        CancelAtOwnIndex(startedAt, i + 1, c, |raw|);
      }
    }
  }

  /** Cutting the range at the cancellation point does not move it. */
  lemma {:induction false} CancelAtOwnIndex(startedAt: Started, i: nat, c: nat, n: nat)
    requires i <= c <= n
    requires c == CancelIndex(startedAt, Resolution, i, n)
    ensures CancelIndex(startedAt, Resolution, i, c) == c
    decreases c - i
  {
    if i < c {
      CancelAtOwnIndex(startedAt, i + 1, c, n);
    }
  }

  /** The pass's result: the logger after it and the filtered snapshots it wrote. */
  datatype Reconciled = Reconciled(logger: Logger, snapshots: seq<seq<Segment>>)

  /**
   What a non-empty pass leaves behind. The flag is set, even after a cancel.
   Only the filtered dataset changes, and the last snapshot is of that dataset.
   Phase B starts from phase A's result and appends, to the bounded deque, the
   first fill of every way not already present, in the order the observations
   were processed. Every entry is an old entry that still lacks an official
   limit, or the fill of an observation processed before cancellation. The
   snapshots are the periodic ones of the processed observations, then the
   closing one.
   */
  ghost predicate PassResult(s: Logger, lookupId: IdLookup, lookupBox: BoxLookup, startedAt: Started, r: Reconciled) {
    var kept := Revalidate(s.filtered, lookupId, startedAt);
    var c := CancelIndex(startedAt, Resolution, 0, |s.dataset|);
    && r.logger == s.(filtered := r.logger.filtered, checked := true)
    && |r.snapshots| > 0
    && r.snapshots[|r.snapshots| - 1] == Snapshot(r.logger.filtered)
    && r.snapshots == PeriodicSnapshots(s.dataset, lookupBox, 0, 0, c, kept, Ids(kept)) + [Snapshot(r.logger.filtered)]
    && r.logger.filtered == Bounded.Retain(kept + NewFills(s.dataset[..c], lookupBox, Ids(kept)))
    // without eviction, the entries phase A kept lead the result unchanged
    && (|s.filtered| + |s.dataset| <= Bounded.MAX_ENTRIES ==>
          |kept| <= |r.logger.filtered| && r.logger.filtered[..|kept|] == kept)
    && forall x :: x in r.logger.filtered ==>
         || (x in s.filtered && StillMissing(x, lookupId))
         || exists j :: 0 <= j < c && Candidate(s.dataset[j], lookupBox).Some?
                        && x == Fill(s.dataset[j], Candidate(s.dataset[j], lookupBox).value)
  }

  /**
   Distinct ids stay distinct, after a pass and in every snapshot it writes;
   without eviction, every way filled by a processed observation is present.
   */
  ghost predicate PassKeepsIdsDistinct(s: Logger, lookupBox: BoxLookup, startedAt: Started, r: Reconciled) {
    && (Valid(s) && UniqueIds(s.filtered) ==>
          && UniqueIds(r.logger.filtered)
          && forall k :: 0 <= k < |r.snapshots| ==> GoodSnapshot(r.snapshots[k]))
    && (Valid(s) && UniqueIds(s.filtered) && |s.filtered| + |s.dataset| <= Bounded.MAX_ENTRIES ==>
          forall j :: 0 <= j < CancelIndex(startedAt, Resolution, 0, |s.dataset|)
                      && Candidate(s.dataset[j], lookupBox).Some? ==>
            Candidate(s.dataset[j], lookupBox).value in Ids(r.logger.filtered))
  }

  /** One call of `update_speed_limits`. */
  function UpdateSpeedLimits(s: Logger, lookupId: IdLookup, lookupBox: BoxLookup, startedAt: Started): (r: Reconciled)
    // an empty raw dataset: nothing happens and the pass is not marked done
    ensures s.dataset == [] ==> r == Reconciled(s, [])
    ensures s.dataset != [] ==> PassResult(s, lookupId, lookupBox, startedAt, r)
    ensures Valid(s) ==> Valid(r.logger)
    ensures PassKeepsIdsDistinct(s, lookupBox, startedAt, r)
  {
    if s.dataset == [] then Reconciled(s, [])
    else
      var r := Closing(s, PhaseB(s.filtered, s.dataset, lookupId, lookupBox, startedAt));
      PassShape(s, lookupId, lookupBox, startedAt);
      PassKeepsIds(s, lookupId, lookupBox, startedAt);
      r
  }

  /** The end of a pass: the dataset phase B left, the flag set, and the closing snapshot appended. */
  function Closing(s: Logger, p: Progress): (r: Reconciled)
    // the flag is set and only the filtered dataset changes, to phase B's
    ensures r.logger == s.(filtered := p.filtered, checked := true)
    // the snapshots so far are kept and the closing snapshot of the final dataset follows
    ensures |r.snapshots| == |p.snapshots| + 1 && r.snapshots[..|p.snapshots|] == p.snapshots
    ensures r.snapshots[|p.snapshots|] == Snapshot(p.filtered)
  {
    Reconciled(s.(filtered := p.filtered, checked := true), p.snapshots + [Snapshot(p.filtered)])
  }

  /** What a non-empty pass leaves behind: the flag, the last snapshot, and the dataset's contents. */
  lemma PassShape(s: Logger, lookupId: IdLookup, lookupBox: BoxLookup, startedAt: Started)
    requires s.dataset != []
    ensures PassResult(s, lookupId, lookupBox, startedAt,
                       Closing(s, PhaseB(s.filtered, s.dataset, lookupId, lookupBox, startedAt)))
    ensures Valid(s) ==> Valid(Closing(s, PhaseB(s.filtered, s.dataset, lookupId, lookupBox, startedAt)).logger)
  {
    var p := PhaseB(s.filtered, s.dataset, lookupId, lookupBox, startedAt);
    PhaseBShape(s.filtered, s.dataset, lookupId, lookupBox, startedAt);
    PhaseBMembers(s.filtered, s.dataset, lookupId, lookupBox, startedAt);
    var snapshots := p.snapshots + [Snapshot(p.filtered)];
    assert snapshots[|snapshots| - 1] == Snapshot(p.filtered);
    assert p.snapshots == [] + p.snapshots;
  }

  /** A pass over distinct ids keeps them distinct, writes good snapshots, and loses no fill without eviction. */
  lemma PassKeepsIds(s: Logger, lookupId: IdLookup, lookupBox: BoxLookup, startedAt: Started)
    requires s.dataset != []
    ensures PassKeepsIdsDistinct(s, lookupBox, startedAt,
                                 Closing(s, PhaseB(s.filtered, s.dataset, lookupId, lookupBox, startedAt)))
  {
    if Valid(s) && UniqueIds(s.filtered) {
      PhaseBConsistent(s.filtered, s.dataset, lookupId, lookupBox, startedAt);
    }
  }

  /** Phase B run from phase A's result over the whole raw dataset. */
  function PhaseB(filtered: seq<Segment>, raw: seq<Observation>, lookupId: IdLookup, lookupBox: BoxLookup,
                  startedAt: Started): Progress
  {
    ResolveFrom(raw, lookupBox, startedAt, 0, Start(filtered, lookupId, startedAt))
  }

  /**
   The dataset after phase B is phase A's result followed by the new fills,
   kept to the newest MAX_ENTRIES.
   */
  lemma PhaseBShape(filtered: seq<Segment>, raw: seq<Observation>, lookupId: IdLookup, lookupBox: BoxLookup,
                    startedAt: Started)
    ensures var kept := Revalidate(filtered, lookupId, startedAt);
            var c := CancelIndex(startedAt, Resolution, 0, |raw|);
            var f := PhaseB(filtered, raw, lookupId, lookupBox, startedAt).filtered;
            && f == Bounded.Retain(kept + NewFills(raw[..c], lookupBox, Ids(kept)))
            && (|filtered| + |raw| <= Bounded.MAX_ENTRIES ==> |kept| <= |f| && f[..|kept|] == kept)
  {
    var p0 := Start(filtered, lookupId, startedAt);
    var kept := p0.filtered;
    var bound := if |filtered| <= Bounded.MAX_ENTRIES then |filtered| else |kept|;
    PassAppendsFills(raw, lookupBox, startedAt, kept, p0.seen, bound);
  }

  /** Each entry after phase B is an old one that still lacks a limit, or the fill of a processed observation. */
  lemma PhaseBMembers(filtered: seq<Segment>, raw: seq<Observation>, lookupId: IdLookup, lookupBox: BoxLookup,
                      startedAt: Started)
    ensures var c := CancelIndex(startedAt, Resolution, 0, |raw|);
            forall x :: x in PhaseB(filtered, raw, lookupId, lookupBox, startedAt).filtered ==>
              || (x in filtered && StillMissing(x, lookupId))
              || exists j :: 0 <= j < c && Candidate(raw[j], lookupBox).Some?
                             && x == Fill(raw[j], Candidate(raw[j], lookupBox).value)
  {
    var kept := Revalidate(filtered, lookupId, startedAt);
    var c := CancelIndex(startedAt, Resolution, 0, |raw|);
    PhaseBShape(filtered, raw, lookupId, lookupBox, startedAt);
    RetainedOrFilled(PhaseB(filtered, raw, lookupId, lookupBox, startedAt).filtered, kept, filtered, raw, c,
                     lookupId, lookupBox, Ids(kept));
  }

  /** Membership in a bounded deque of surviving entries followed by fills of the first `c` observations. */
  lemma RetainedOrFilled(f: seq<Segment>, kept: seq<Segment>, filtered: seq<Segment>, raw: seq<Observation>, c: nat,
                         lookupId: IdLookup, lookupBox: BoxLookup, seen: set<int>)
    requires c <= |raw|
    requires f == Bounded.Retain(kept + NewFills(raw[..c], lookupBox, seen))
    requires forall x :: x in kept ==> x in filtered && StillMissing(x, lookupId)
    ensures forall x :: x in f ==>
              || (x in filtered && StillMissing(x, lookupId))
              || exists j :: 0 <= j < c && Candidate(raw[j], lookupBox).Some?
                             && x == Fill(raw[j], Candidate(raw[j], lookupBox).value)
  {
    var fills := NewFills(raw[..c], lookupBox, seen);
    forall x | x in f
      ensures || (x in filtered && StillMissing(x, lookupId))
              || exists j :: 0 <= j < c && Candidate(raw[j], lookupBox).Some?
                             && x == Fill(raw[j], Candidate(raw[j], lookupBox).value)
    {
      assert x in kept + fills;
      if x !in kept {
        assert x in fills;
        var j :| 0 <= j < |raw[..c]| && Candidate(raw[..c][j], lookupBox).Some?
                 && x == Fill(raw[..c][j], Candidate(raw[..c][j], lookupBox).value);
        assert raw[..c][j] == raw[j];
      }
    }
  }

  /** Phase B on distinct ids keeps them distinct, writes good snapshots, and loses no fill without eviction. */
  lemma PhaseBConsistent(filtered: seq<Segment>, raw: seq<Observation>, lookupId: IdLookup, lookupBox: BoxLookup,
                         startedAt: Started)
    requires |filtered| <= Bounded.MAX_ENTRIES && UniqueIds(filtered)
    ensures var p := PhaseB(filtered, raw, lookupId, lookupBox, startedAt);
            && UniqueIds(p.filtered)
            && (forall k :: 0 <= k < |p.snapshots + [Snapshot(p.filtered)]| ==>
                  GoodSnapshot((p.snapshots + [Snapshot(p.filtered)])[k]))
            && (|filtered| + |raw| <= Bounded.MAX_ENTRIES ==>
                  forall j :: 0 <= j < CancelIndex(startedAt, Resolution, 0, |raw|)
                              && Candidate(raw[j], lookupBox).Some? ==>
                    Candidate(raw[j], lookupBox).value in Ids(p.filtered))
  {
    var p0 := Start(filtered, lookupId, startedAt);
    var p := PhaseB(filtered, raw, lookupId, lookupBox, startedAt);
    ResolveFromKeepsConsistent(raw, lookupBox, startedAt, 0, p0);
    FinalSnapshotGood(p);
    CandidatesOfPrefix(raw, CancelIndex(startedAt, Resolution, 0, |raw|), lookupBox);
  }

  /** Phase B's dataset is phase A's followed by the new fills, kept to the newest MAX_ENTRIES. */
  lemma PassAppendsFills(raw: seq<Observation>, lookupBox: BoxLookup, startedAt: Started,
                         kept: seq<Segment>, seen: set<int>, bound: nat)
    requires |kept| <= bound <= Bounded.MAX_ENTRIES
    ensures var c := CancelIndex(startedAt, Resolution, 0, |raw|);
            var fills := NewFills(raw[..c], lookupBox, seen);
            && raw[0..c] == raw[..c]
            && Bounded.AppendAll(kept, NewFills(raw[0..c], lookupBox, seen)) == Bounded.Retain(kept + fills)
            && (bound + |raw| <= Bounded.MAX_ENTRIES ==> Bounded.Retain(kept + fills)[..|kept|] == kept)
  {
    var c := CancelIndex(startedAt, Resolution, 0, |raw|);
    var fills := NewFills(raw[..c], lookupBox, seen);
    assert raw[0..c] == raw[..c];
    Bounded.AppendAllKeepsNewest(kept, fills);
    if bound + |raw| <= Bounded.MAX_ENTRIES {
      assert (kept + fills)[..|kept|] == kept;
    }
  }

  /** The closing snapshot of a consistent state is well ordered. */
  lemma FinalSnapshotGood(p: Progress)
    requires Consistent(p)
    ensures forall k :: 0 <= k < |p.snapshots + [Snapshot(p.filtered)]| ==>
              GoodSnapshot((p.snapshots + [Snapshot(p.filtered)])[k])
  {
    SnapshotSortsEntries(p.filtered);
  }

  /** Every observation before `c` contributes its candidate id to the prefix's ids. */
  lemma CandidatesOfPrefix(raw: seq<Observation>, c: nat, lookupBox: BoxLookup)
    requires c <= |raw|
    ensures forall j :: 0 <= j < c && Candidate(raw[j], lookupBox).Some? ==>
              Candidate(raw[j], lookupBox).value in CandidateIds(raw[0..c], lookupBox)
  {
    forall j | 0 <= j < c && Candidate(raw[j], lookupBox).Some?
      ensures Candidate(raw[j], lookupBox).value in CandidateIds(raw[0..c], lookupBox)
    {
      assert raw[0..c][j] == raw[j];
    }
  }

  /** Phase B's starting state: the revalidated entries and their ids. */
  function Start(filtered: seq<Segment>, lookupId: IdLookup, startedAt: Started): (p: Progress)
    ensures p.filtered == Revalidate(filtered, lookupId, startedAt)
    ensures p.snapshots == [] && p.seen == Ids(p.filtered)
    ensures forall x :: x in p.filtered ==> x in filtered && StillMissing(x, lookupId)
    ensures |p.filtered| <= |filtered| && |p.filtered| <= Bounded.MAX_ENTRIES
    ensures UniqueIds(filtered) && |filtered| <= Bounded.MAX_ENTRIES ==> Consistent(p)
  {
    var kept := Revalidate(filtered, lookupId, startedAt);
    var p := Progress(kept, Ids(kept), []);
    if UniqueIds(filtered) && |filtered| <= Bounded.MAX_ENTRIES then
      var c := CancelIndex(startedAt, Revalidation, 0, |filtered|);
      assert UniqueIds(filtered[..c]);
      RetainedKeepsUnique(filtered[..c], lookupId);
      p
    else p
  }

  // ---------------------------------------------------------------- scenarios

  /** An observation driven on a way without an official limit. */
  function ScenarioObservation(): Observation {
    Observation(Some(Coord(40.0, -75.0)), Some(Coord(40.0001, -75.0)), 55, Dashboard)
  }

  /** A pass over just that observation, with no filtered entries yet and no cancellation. */
  function ScenarioPass(lookupId: IdLookup, lookupBox: BoxLookup, startedAt: Started): seq<Segment> {
    UpdateSpeedLimits(Logger(false, false, None, [ScenarioObservation()], []), lookupId, lookupBox, startedAt)
      .logger.filtered
  }

  /** Way 42 without an official limit is filled with the observed dashboard limit. */
  lemma ScenarioMissingLimitIsFilled(lookupId: IdLookup, lookupBox: BoxLookup, startedAt: Started)
    requires lookupBox(Coord(40.0, -75.0), Coord(40.0001, -75.0)) == Some((Some(42), None))
    requires !startedAt(Resolution, 0)
    ensures ScenarioPass(lookupId, lookupBox, startedAt) == [Segment(Some(42), Dashboard, 55)]
  {
    var raw := [ScenarioObservation()];
    assert Revalidate([], lookupId, startedAt) == [];
    assert Ids([]) == {};
    assert CancelIndex(startedAt, Resolution, 0, 1) == 1;
    assert raw[..1] == raw;
    assert Candidate(raw[0], lookupBox) == Some(42);
    assert NewFills(raw, lookupBox, {}) == [Segment(Some(42), Dashboard, 55)];
  }

  /** Way 42 already tagged 55 is not filled. */
  lemma ScenarioKnownLimitIsSkipped(lookupId: IdLookup, lookupBox: BoxLookup, startedAt: Started)
    requires lookupBox(Coord(40.0, -75.0), Coord(40.0001, -75.0)) == Some((Some(42), Some(55)))
    ensures ScenarioPass(lookupId, lookupBox, startedAt) == []
  {
    var raw := [ScenarioObservation()];
    assert Revalidate([], lookupId, startedAt) == [];
    assert Ids([]) == {};
    assert Candidate(raw[0], lookupBox) == None;
    var c := CancelIndex(startedAt, Resolution, 0, 1);
    assert raw[..c] == [] || raw[..c] == raw;
    assert NewFills(raw[..c], lookupBox, {}) == [];
  }

  /**
   Phase B treats an official limit of 0 as missing (`if speed_limit`): way 42
   tagged 0 is filled like an untagged way.
   */
  lemma ScenarioZeroLimitIsFilled(lookupId: IdLookup, lookupBox: BoxLookup, startedAt: Started)
    requires lookupBox(Coord(40.0, -75.0), Coord(40.0001, -75.0)) == Some((Some(42), Some(0)))
    requires !startedAt(Resolution, 0)
    ensures ScenarioPass(lookupId, lookupBox, startedAt) == [Segment(Some(42), Dashboard, 55)]
  {
    var raw := [ScenarioObservation()];
    assert Revalidate([], lookupId, startedAt) == [];
    assert Ids([]) == {};
    assert CancelIndex(startedAt, Resolution, 0, 1) == 1;
    assert raw[..1] == raw;
    assert Candidate(raw[0], lookupBox) == Some(42);
    assert NewFills(raw, lookupBox, {}) == [Segment(Some(42), Dashboard, 55)];
  }

  /**
   Phase A treats an official limit of 0 as known (`is not None`): the entry for
   way 42 is dropped once the way is tagged 0.
   */
  lemma ScenarioZeroLimitIsDropped(lookupId: IdLookup, startedAt: Started)
    requires lookupId(42) == Some(0)
    requires !startedAt(Revalidation, 0)
    ensures Revalidate([Segment(Some(42), Dashboard, 55)], lookupId, startedAt) == []
  {
    var entries := [Segment(Some(42), Dashboard, 55)];
    assert CancelIndex(startedAt, Revalidation, 0, 1) == 1;
    assert entries[..1] == entries;
  }

  /** An entry for way 42 is dropped once the way is tagged 30. */
  lemma ScenarioTaggedWayIsDropped(lookupId: IdLookup, startedAt: Started)
    requires lookupId(42) == Some(30)
    requires !startedAt(Revalidation, 0)
    ensures Revalidate([Segment(Some(42), Dashboard, 55)], lookupId, startedAt) == []
  {
    var entries := [Segment(Some(42), Dashboard, 55)];
    assert CancelIndex(startedAt, Revalidation, 0, 1) == 1;
    assert entries[..1] == entries;
  }
}

=== FILE: records.dfy ===
/**
 The records the speed-limit filler stores, and the state of its logger.
 JSON dictionaries become datatypes; a key that may be missing becomes an Option.
 */
module Records {
  import opened Wrappers
  import Bounded

  /** A GPS fix in degrees. The model never computes with it, so `real` suffices. */
  datatype Coord = Coord(latitude: real, longitude: real)

  /** Which sensor reported a speed limit. */
  datatype Source = Dashboard | Navigation

  /** The tag written to storage; navigation-sourced entries carry "NOO". */
  function SourceTag(src: Source): (tag: string)
    ensures tag == "Dashboard" <==> src == Dashboard
    ensures tag == "NOO" <==> src == Navigation
  {
    match src
    case Dashboard => "Dashboard"
    case Navigation => "NOO"
  }

  /**
   A raw observation: the stretch driven between two fixes and the limit seen on it.
   Entries loaded from storage may lack a coordinate, hence the options.
   */
  datatype Observation = Observation(
    startCoords: Option<Coord>,
    endCoords: Option<Coord>,
    speedLimit: int,
    source: Source)

  /** A filtered entry: a road segment with no official limit and the observed fill value. */
  datatype Segment = Segment(segmentId: Option<int>, source: Source, speedLimit: int)

  /** Python truthiness of an optional integer: present and nonzero. */
  predicate Truthy(o: Option<int>) {
    o.Some? && o.value != 0
  }

  /** Every entry has a usable segment id. */
  predicate AllTruthy(s: seq<Segment>) {
    forall i :: 0 <= i < |s| ==> Truthy(s[i].segmentId)
  }

  /** No two entries share a segment id. */
  predicate UniqueIds(s: seq<Segment>) {
    forall i, j :: 0 <= i < j < |s| ==> s[i].segmentId != s[j].segmentId
  }

  /** The segment ids present in a filtered dataset. */
  function Ids(s: seq<Segment>): (ids: set<int>)
    ensures forall e :: e in s && e.segmentId.Some? ==> e.segmentId.value in ids
    ensures forall id :: id in ids ==> exists e :: e in s && e.segmentId == Some(id)
  {
    set e | e in s && e.segmentId.Some? :: e.segmentId.value
  }

  /**
   The logger: the reconciliation-done flag, the last seen "started" flag,
   the reference fix of the distance gate, and the two bounded datasets.
   */
  datatype Logger = Logger(
    checked: bool,
    startedPreviously: bool,
    previousCoords: Option<Coord>,
    dataset: seq<Observation>,
    filtered: seq<Segment>)

  /** Both datasets respect the deque capacity. */
  predicate Valid(s: Logger) {
    |s.dataset| <= Bounded.MAX_ENTRIES && |s.filtered| <= Bounded.MAX_ENTRIES
  }

  /**
   A fresh logger: both flags false, no reference fix, and the two stored
   datasets loaded into bounded deques (only their newest entries survive).
   */
  function Init(storedRaw: seq<Observation>, storedFiltered: seq<Segment>): (s: Logger)
    ensures Valid(s)
    ensures !s.checked && !s.startedPreviously && s.previousCoords.None?
    ensures Bounded.IsSuffix(s.dataset, storedRaw) && Bounded.IsSuffix(s.filtered, storedFiltered)
    ensures |storedRaw| <= Bounded.MAX_ENTRIES ==> s.dataset == storedRaw
    ensures |storedFiltered| <= Bounded.MAX_ENTRIES ==> s.filtered == storedFiltered
    ensures |storedRaw| > Bounded.MAX_ENTRIES ==> |s.dataset| == Bounded.MAX_ENTRIES
    ensures |storedFiltered| > Bounded.MAX_ENTRIES ==> |s.filtered| == Bounded.MAX_ENTRIES
  {
    Logger(false, false, None, Bounded.Retain(storedRaw), Bounded.Retain(storedFiltered))
  }
}

=== FILE: sampler.dfy ===
/**
 One tick of the sample collector (`log_speed_limit`): the drive-end
 checkpoint, the reset on missing data, the first fix, the 1-metre distance
 gate and the dashboard-over-navigation priority.
 */
module Sampler {
  import opened Wrappers
  import opened Records
  import Bounded

  /**
   What one tick reads from the outside world. `movedAtLeast1m` is the outcome of
   the haversine distance check against the reference fix; the two limits are
   0 when their source reports none.
   */
  datatype Tick = Tick(
    started: bool,
    navUpdated: bool,
    position: Option<Coord>,
    mapSpeedLimitNonzero: bool,
    movedAtLeast1m: bool,
    dashboard: int,
    navigation: int)

  /** The logger after a tick, and the raw dataset written to storage if the drive ended. */
  datatype TickResult = TickResult(logger: Logger, checkpoint: Option<seq<Observation>>)

  /** A tick that delivers a usable fix: fresh navigation data, a position, no known map limit. */
  predicate FixTick(t: Tick) {
    t.navUpdated && t.position.Some? && !t.mapSpeedLimitNonzero
  }

  /** The gated part of a tick, from the `navUpdated` check onward. */
  function Sample(s: Logger, t: Tick): Logger {
    if !t.navUpdated then s
    else if t.position.None? || t.mapSpeedLimitNonzero then s.(previousCoords := None)
    else if s.previousCoords.None? then s.(previousCoords := t.position)
    else if !t.movedAtLeast1m then s
    else
      var ds :=
        if t.dashboard != 0 then
          Bounded.AddEntry(s.dataset, Observation(s.previousCoords, t.position, t.dashboard, Dashboard))
        else if t.navigation != 0 then
          Bounded.AddEntry(s.dataset, Observation(s.previousCoords, t.position, t.navigation, Navigation))
        else s.dataset;
      s.(dataset := ds, previousCoords := t.position)
  }

  /** One call of `log_speed_limit`. */
  function LogSpeedLimit(s: Logger, t: Tick): (r: TickResult)
    // drive-end transition: handled before the freshness check
    ensures r.logger.startedPreviously == t.started
    ensures r.checkpoint.Some? <==> s.startedPreviously && !t.started
    ensures r.checkpoint.Some? ==> r.checkpoint.value == s.dataset
    ensures r.logger.checked <==> s.checked && !(s.startedPreviously && !t.started)
    ensures r.logger.filtered == s.filtered
    ensures Valid(s) ==> Valid(r.logger)
    // stale navigation data: nothing else happens
    ensures !t.navUpdated ==>
              r.logger.previousCoords == s.previousCoords && r.logger.dataset == s.dataset
    // reset: no position, or a limit is already known for it
    ensures t.navUpdated && !FixTick(t) ==>
              r.logger.previousCoords.None? && r.logger.dataset == s.dataset
    // first fix: remembered, nothing recorded
    ensures FixTick(t) && s.previousCoords.None? ==>
              r.logger.previousCoords == t.position && r.logger.dataset == s.dataset
    // distance gate: too close, wait for more movement
    ensures FixTick(t) && s.previousCoords.Some? && !t.movedAtLeast1m ==>
              r.logger.previousCoords == s.previousCoords && r.logger.dataset == s.dataset
    // past the gate: the window slides and the preferred source is recorded
    ensures FixTick(t) && s.previousCoords.Some? && t.movedAtLeast1m ==>
              && r.logger.previousCoords == t.position
              && (t.dashboard != 0 ==>
                    r.logger.dataset == Bounded.AddEntry(s.dataset,
                      Observation(s.previousCoords, t.position, t.dashboard, Dashboard)))
              && (t.dashboard == 0 && t.navigation != 0 ==>
                    r.logger.dataset == Bounded.AddEntry(s.dataset,
                      Observation(s.previousCoords, t.position, t.navigation, Navigation)))
              && (t.dashboard == 0 && t.navigation == 0 ==> r.logger.dataset == s.dataset)
  {
    var driveEnded := !t.started && s.startedPreviously;
    var s1 := s.(checked := if driveEnded then false else s.checked, startedPreviously := t.started);
    TickResult(Sample(s1, t), if driveEnded then Some(s.dataset) else None)
  }

  /** A tick records an observation. */
  predicate Appends(s: Logger, t: Tick) {
    FixTick(t) && s.previousCoords.Some? && t.movedAtLeast1m && (t.dashboard != 0 || t.navigation != 0)
  }

  /**
   Whenever a tick records an observation, the new last entry spans from the
   reference fix to the current one and carries the dashboard limit if there
   is one (stored as "Dashboard"), else the navigation limit (stored as
   "NOO"); every recorded entry has both
   coordinates and a nonzero limit.
   */
  lemma RecordedObservation(s: Logger, t: Tick)
    requires Appends(s, t)
    ensures var ds := LogSpeedLimit(s, t).logger.dataset;
            && |ds| > 0
            && ds[|ds| - 1].startCoords == s.previousCoords
            && ds[|ds| - 1].endCoords == t.position
            && ds[|ds| - 1].startCoords.Some? && ds[|ds| - 1].endCoords.Some?
            && ds[|ds| - 1].speedLimit != 0
            && (ds[|ds| - 1].source == Dashboard <==> t.dashboard != 0)
            && SourceTag(ds[|ds| - 1].source) == (if t.dashboard != 0 then "Dashboard" else "NOO")
            && ds[|ds| - 1].speedLimit == (if t.dashboard != 0 then t.dashboard else t.navigation)
  {
  }

  /** Running the logger over a sequence of ticks. */
  function Run(s: Logger, ts: seq<Tick>): Logger
    decreases |ts|
  {
    if ts == [] then s else Run(LogSpeedLimit(s, ts[0]).logger, ts[1..])
  }

  /** How many ticks of a run record an observation. */
  function AppendCount(s: Logger, ts: seq<Tick>): nat
    decreases |ts|
  {
    if ts == [] then 0
    else (if Appends(s, ts[0]) then 1 else 0) + AppendCount(LogSpeedLimit(s, ts[0]).logger, ts[1..])
  }

  /** How many ticks of a run deliver a usable fix. */
  function FixCount(ts: seq<Tick>): nat
    decreases |ts|
  {
    if ts == [] then 0 else (if FixTick(ts[0]) then 1 else 0) + FixCount(ts[1..])
  }

  /**
   Every recorded observation needs a fix of its own, and a logger without a
   reference fix needs one more fix before it records anything: no observation
   is ever recorded before two fixes have been seen.
   */
  lemma {:induction false} ObservationsNeedTwoFixes(s: Logger, ts: seq<Tick>)
    ensures AppendCount(s, ts) <= FixCount(ts)
    ensures s.previousCoords.None? && AppendCount(s, ts) > 0 ==> AppendCount(s, ts) + 1 <= FixCount(ts)
    decreases |ts|
  {
    if ts != [] {
      ObservationsNeedTwoFixes(LogSpeedLimit(s, ts[0]).logger, ts[1..]);
    }
  }

  /** A run keeps both datasets within capacity. */
  lemma {:induction false} RunStaysValid(s: Logger, ts: seq<Tick>)
    requires Valid(s)
    ensures Valid(Run(s, ts))
    ensures Run(s, ts).filtered == s.filtered
    decreases |ts|
  {
    if ts != [] {
      RunStaysValid(LogSpeedLimit(s, ts[0]).logger, ts[1..]);
    }
  }
}

=== FILE: scheduler.dfy ===
/**
 One iteration of the filler's main loop: reconcile when the previous pass
 was not completed and Overpass answers pings, then take one sample. The two
 lookups are the Overpass queries applied to the replies the service gives.
 */
module Scheduler {
  import opened Wrappers
  import opened Records
  import Bounded
  import Overpass
  import Sampler
  import Reconcile
  import SortedSnapshot

  /** The replies Overpass gives to a by-id query and to a bounding-box query. */
  type WayQuery = int -> Overpass.Reply
  type BoxQuery = (Coord, Coord) -> Overpass.Reply

  /** The by-id lookup the pass uses: the first way's limit in the reply. */
  function IdLookupOf(queryWay: WayQuery): Reconcile.IdLookup {
    id => Overpass.FetchSpeedLimit(queryWay(id))
  }

  /** The bounding-box lookup the pass uses: the first way's id and limit in the reply. */
  function BoxLookupOf(queryBox: BoxQuery): Reconcile.BoxLookup {
    (a, b) => Overpass.FetchSegments(queryBox(a, b))
  }

  /** What one iteration produces: the logger, the raw checkpoint, the filtered snapshots. */
  datatype StepResult = StepResult(
    logger: Logger,
    rawCheckpoint: Option<seq<Observation>>,
    filteredSnapshots: seq<seq<Segment>>)

  /** One loop iteration; `reachable` is the ping of the Overpass host. */
  function Step(s: Logger, reachable: bool, queryWay: WayQuery, queryBox: BoxQuery,
                startedAt: Reconcile.Started, t: Sampler.Tick): (r: StepResult)
    // the pass runs only when it is armed and the service answers
    ensures (s.checked || !reachable) ==>
              r.filteredSnapshots == [] && r.logger.filtered == s.filtered
    // armed with the service answering, the pass runs: an empty raw dataset returns at once,
    // otherwise phase B's fills land on phase A's result and the pass's snapshots are written
    ensures !s.checked && reachable && s.dataset == [] ==>
              r.filteredSnapshots == [] && r.logger.filtered == s.filtered
    ensures !s.checked && reachable && s.dataset != [] ==>
              var lookupBox := BoxLookupOf(queryBox);
              var kept := Reconcile.Revalidate(s.filtered, IdLookupOf(queryWay), startedAt);
              var c := Reconcile.CancelIndex(startedAt, Reconcile.Resolution, 0, |s.dataset|);
              && r.logger.filtered == Bounded.Retain(kept + Reconcile.NewFills(s.dataset[..c], lookupBox, Ids(kept)))
              && r.filteredSnapshots == Reconcile.PeriodicSnapshots(s.dataset, lookupBox, 0, 0, c, kept, Ids(kept))
                                        + [SortedSnapshot.Snapshot(r.logger.filtered)]
    // the pass never changes the raw dataset: without fresh navigation data it is unchanged
    ensures !t.navUpdated ==> r.logger.dataset == s.dataset
    ensures Valid(s) ==> Valid(r.logger)
    ensures Valid(s) && UniqueIds(s.filtered) ==> UniqueIds(r.logger.filtered)
    ensures r.logger.startedPreviously == t.started
    // a completed pass stays completed until the drive ends again
    ensures !s.checked && reachable && s.dataset != [] && !(s.startedPreviously && !t.started) ==>
              r.logger.checked
  {
    var reconciled :=
      if !s.checked && reachable then
        Reconcile.UpdateSpeedLimits(s, IdLookupOf(queryWay), BoxLookupOf(queryBox), startedAt)
      else Reconcile.Reconciled(s, []);
    Finish(reconciled, t)
  }

  /** The sample step after the (possibly skipped) pass. */
  function Finish(reconciled: Reconcile.Reconciled, t: Sampler.Tick): StepResult {
    var ticked := Sampler.LogSpeedLimit(reconciled.logger, t);
    StepResult(ticked.logger, ticked.checkpoint, reconciled.snapshots)
  }
}

=== FILE: snapshot.dfy ===
/**
 The persisted form of the filtered dataset: its entries sorted by segment id
 (Python's stable `sorted`) and loaded back into a bounded deque.
 */
module SortedSnapshot {
  import opened Wrappers
  import opened Records
  import Bounded

  /** The sort key. Entries reaching a snapshot always carry an id; a missing one sorts as 0. */
  function Key(e: Segment): int {
    e.segmentId.GetOr(0)
  }

  predicate SortedByKey(s: seq<Segment>) {
    forall i, j :: 0 <= i < j < |s| ==> Key(s[i]) <= Key(s[j])
  }

  predicate StrictlySorted(s: seq<Segment>) {
    forall i, j :: 0 <= i < j < |s| ==> Key(s[i]) < Key(s[j])
  }

  /** Inserts `x` before the first entry whose key is not smaller, keeping order and ties stable. */
  function Insert(x: Segment, s: seq<Segment>): (r: seq<Segment>)
    requires SortedByKey(s)
    ensures |r| == |s| + 1
    ensures forall e :: e in r <==> e == x || e in s
    ensures SortedByKey(r)
    ensures multiset(r) == multiset(s) + multiset{x}
  {
    if s == [] || Key(x) <= Key(s[0]) then [x] + s
    else
      SortedTail(s);
      var tail := Insert(x, s[1..]);
      HeadBelowRest(x, s, tail);
      SortedCons(s[0], tail);
      ConsKeepsElements(x, s, tail);
      [s[0]] + tail
  }

  /** The head of a sorted sequence is no larger than anything inserted after it. */
  lemma HeadBelowRest(x: Segment, s: seq<Segment>, tail: seq<Segment>)
    requires s != [] && SortedByKey(s) && Key(s[0]) < Key(x)
    requires forall e :: e in tail <==> e == x || e in s[1..]
    ensures forall j :: 0 <= j < |tail| ==> Key(s[0]) <= Key(tail[j])
  {
    forall j | 0 <= j < |tail|
      ensures Key(s[0]) <= Key(tail[j])
    {
      assert tail[j] in tail;
      if tail[j] != x {
        var i :| 0 <= i < |s[1..]| && s[1..][i] == tail[j];
        assert s[i + 1] == tail[j];
      }
    }
  }

  /** Putting the head back in front of the tail with `x` inserted gives `s` with `x` inserted. */
  lemma ConsKeepsElements(x: Segment, s: seq<Segment>, tail: seq<Segment>)
    requires s != []
    requires forall e :: e in tail <==> e == x || e in s[1..]
    requires multiset(tail) == multiset(s[1..]) + multiset{x}
    ensures forall e :: e in [s[0]] + tail <==> e == x || e in s
    ensures multiset([s[0]] + tail) == multiset(s) + multiset{x}
  {
    assert s == [s[0]] + s[1..];
  }

  /** Dropping the first entry keeps the order. */
  lemma SortedTail(s: seq<Segment>)
    requires s != [] && SortedByKey(s)
    ensures SortedByKey(s[1..])
  {
    forall i, j | 0 <= i < j < |s[1..]|
      ensures Key(s[1..][i]) <= Key(s[1..][j])
    {
      assert s[1..][i] == s[i + 1] && s[1..][j] == s[j + 1];
    }
  }

  /** An entry no larger than every entry of a sorted sequence can lead it. */
  lemma SortedCons(h: Segment, t: seq<Segment>)
    requires SortedByKey(t)
    requires forall j :: 0 <= j < |t| ==> Key(h) <= Key(t[j])
    ensures SortedByKey([h] + t)
  {
    var r := [h] + t;
    forall i, j | 0 <= i < j < |r|
      ensures Key(r[i]) <= Key(r[j])
    {
      assert r[j] == t[j - 1];
      if i > 0 {
        assert r[i] == t[i - 1];
      }
    }
  }

  /** Inserting an entry whose id is new keeps the ids distinct. */
  lemma {:induction false} InsertKeepsUnique(x: Segment, s: seq<Segment>)
    requires SortedByKey(s) && UniqueIds(s)
    requires forall e :: e in s ==> e.segmentId != x.segmentId
    ensures UniqueIds(Insert(x, s))
    decreases |s|
  {
    if s == [] || Key(x) <= Key(s[0]) {
    } else {
      assert s == [s[0]] + s[1..];
      InsertKeepsUnique(x, s[1..]);
      var r := Insert(x, s);
      assert r == [s[0]] + Insert(x, s[1..]);
      forall j | 0 < j < |r|
        ensures r[0].segmentId != r[j].segmentId
      {
        assert r[j] in Insert(x, s[1..]);
      }
    }
  }

  /** Insertion sort by key. */
  function Sort(s: seq<Segment>): (r: seq<Segment>)
    ensures |r| == |s|
    ensures forall e :: e in r <==> e in s
    ensures SortedByKey(r)
    ensures multiset(r) == multiset(s)
  {
    if s == [] then []
    else
      assert s == [s[0]] + s[1..];
      Insert(s[0], Sort(s[1..]))
  }

  /** Sorting keeps the ids distinct. */
  lemma {:induction false} SortKeepsUnique(s: seq<Segment>)
    requires UniqueIds(s)
    ensures UniqueIds(Sort(s))
    decreases |s|
  {
    if s != [] {
      SortKeepsUnique(s[1..]);
      forall e | e in Sort(s[1..])
        ensures e.segmentId != s[0].segmentId
      {
        var j :| 0 <= j < |s[1..]| && s[1..][j] == e;
        assert s[j + 1] == e;
      }
      InsertKeepsUnique(s[0], Sort(s[1..]));
    }
  }

  /** The snapshot written to storage: the sorted entries in a bounded deque. */
  function Snapshot(s: seq<Segment>): (r: seq<Segment>)
    ensures |r| <= Bounded.MAX_ENTRIES
    ensures SortedByKey(r)
    ensures forall e :: e in r ==> e in s
    ensures |s| <= Bounded.MAX_ENTRIES ==> multiset(r) == multiset(s)
  {
    var t := Sort(s);
    var r := Bounded.Retain(t);
    SuffixKeepsSorted(r, t);
    r
  }

  /** A tail of a sorted sequence is sorted. */
  lemma SuffixKeepsSorted(r: seq<Segment>, t: seq<Segment>)
    requires SortedByKey(t) && Bounded.IsSuffix(r, t)
    ensures SortedByKey(r)
  {
    var off := |t| - |r|;
    forall i, j | 0 <= i < j < |r|
      ensures Key(r[i]) <= Key(r[j])
    {
      assert r[i] == t[off + i] && r[j] == t[off + j];
    }
  }

  /**
   A snapshot of a bounded dataset whose ids are present and distinct holds the
   same entries, ordered strictly by segment id.
   */
  lemma SnapshotSortsEntries(s: seq<Segment>)
    requires |s| <= Bounded.MAX_ENTRIES
    requires AllTruthy(s) && UniqueIds(s)
    ensures multiset(Snapshot(s)) == multiset(s)
    ensures StrictlySorted(Snapshot(s))
    ensures AllTruthy(Snapshot(s))
  {
    var r := Sort(s);
    SortKeepsUnique(s);
    assert Snapshot(s) == r;
    forall i | 0 <= i < |r|
      ensures Truthy(r[i].segmentId)
    {
      assert r[i] in s;
      var j :| 0 <= j < |s| && s[j] == r[i];
    }
    forall i, j | 0 <= i < j < |r|
      ensures Key(r[i]) < Key(r[j])
    {
      assert r[i].segmentId != r[j].segmentId;
    }
  }
}

=== FILE: wrappers.dfy ===
/** The optional value used wherever the Python code may produce `None`. */
module Wrappers {

  datatype Option<+T> = None | Some(value: T) {

    /** Returns the value held in Some, or `default` when None. */
    function GetOr(default: T): T {
      match this
      case Some(v) => v
      case None => default
    }
  }
}
